=== FILE: README.md ===
# cardvisa bridge — a Dafny model

This project models the core of the `cardvisa` bridge. The bridge sits between a card-token smart
contract and an external card processor:

- It scans the chain for contract events, keeping a block checkpoint in its key-value store.
- On a token request it decrypts the client's card with an ECDH-derived AES key, submits a fresh
  token for it, and stores the encrypted blob under the token's key.
- On a charge request it decrypts the stored card and sends the charge to the processor.
- It then writes the processor's verdict to the contract. A pending charge gets a bounded
  monitor that polls the processor. A registry cancels monitors that are superseded or
  explicitly stopped.
- Every contract call goes through one retry loop with a per-method attempt budget.

Everything is modelled as pure functions over immutable data. Anything outside the bridge is an
input:

- the AES block function, ECDH, SHA-256, and the JSON and ABI decoders are function parameters;
- the chain's receipts, the processor's HTTP replies, the clock, randomness and the outcome of
  store writes are values passed in.

Go panics reachable from the modelled code are explicit outcomes, not preconditions. These are a
short stored blob, an IV of the wrong length, a ciphertext that is not whole blocks, and an event
without topics.

Modules:

| module | file | models |
|---|---|---|
| `Wrappers` | wrappers.dfy | `Option` and `Result` |
| `Bytes` | bytes.dfy | bytes, `hex.EncodeToString` / `hex.DecodeString`, `string(b)` / `[]byte(s)`, addresses |
| `Strings` | strings.dfy | `strings.Contains`, Go's byte length of a string |
| `Strconv` | strconv.dfy | `FormatUint`, `%x`, `ParseUint(s, 0, 64)` with and without its error |
| `Pkcs7` | pkcs7.dfy | `padPKCS7`, `unpadPKCS7` |
| `AesCbc` | aescbc.dfy | `EncryptAESCBC`, `DecryptAESCBC`, CBC chaining (NIST SP 800-38A) |
| `Processor` | processor.dfy | `ValidateCard`, `padLeft`, `generateTxID`, `SendToThirdParty`, `UpdateStatus` |
| `Gateway` | gateway.dfy | `sendTransactionAndGetResult`, the per-method wrappers, `CallVerifyPublicKey` |
| `Registry` | registry.dfy | the `cancelMonitors` map |
| `Monitor` | monitor.dfy | `monitorTransaction` |
| `Dispatcher` | dispatcher.dfy | `HandleConnectSmartContract` and the four event handlers |
| `Ingest` | ingest.dfy | the checkpointed scan loop of `ListenEvents` |

## Model

| member | source | states |
|---|---|---|
| Bytes.HexEncode | internal/utils/send.go:139 | two lower-case hex digits per byte |
| Bytes.HexValue | internal/network/handler.go:334 | a character has a value exactly when it is a decimal digit or a letter a to f in either case |
| Bytes.HexDecode | internal/network/handler.go:334 | a successful decode halves the length |
| Bytes.HexDecodeDigits | internal/network/handler.go:334 | a successful decode read only hex digits, and each byte is sixteen times its first digit's value plus its second's |
| Bytes.HexDecodeFails | internal/network/handler.go:334-338 | decoding fails exactly for an odd length or a character that is not a hex digit |
| Bytes.HexDecodeTwo | internal/network/handler.go:334 | two hex digits decode to the one byte they spell |
| Bytes.HexDecodeEitherCase | internal/network/handler.go:334 | upper-case digits are accepted: `aB` decodes to 171, and `Ab` decodes like `ab` |
| Bytes.HexRoundTrip | internal/network/handler.go:334 | decoding the hex encoding of any bytes gives the bytes back |
| Bytes.HexEncodeInjective | internal/network/handler.go:398 | different byte strings have different hex encodings |
| Bytes.StringBytesRoundTrip | internal/network/handler.go:153 | converting a byte-sized string to bytes and back is the identity |
| Strings.ContainsIffOccurs | internal/utils/send.go:98 | `Contains` holds exactly when the needle occurs at some index |
| Strings.Utf8Len | internal/utils/send.go:23 | Go's `len` of a string is between its character count and four times it, and is zero only for the empty string |
| Strings.Utf8LenAppend | internal/utils/send.go:130 | the byte length of a concatenation is the sum of the byte lengths |
| Strings.Utf8LenAscii | internal/utils/send.go:23 | for ASCII text the byte length is the character count |
| Strconv.FormatNat | internal/network/handler.go:144 | at least one digit, no leading zero for a positive number, every digit lower-case and below the base |
| Strconv.ParseUintIgnoringError | internal/network/handler.go:137 | a parsed value is within `uint64`; a syntax error reads as 0 and an overflow as the largest `uint64` |
| Strconv.ParseFormatted | internal/network/handler.go:198 | parsing the digits `FormatNat` wrote, in the same base, gives the number back |
| Strconv.DecimalRoundTrip | internal/network/handler.go:153 | the decimal checkpoint parses back to the block number, with and without the error dropped |
| Strconv.HexQuantityRoundTrip | internal/network/handler.go:177-178 | the `0x%x` block bounds parse back to the block numbers |
| Strconv.OverflowSaturates | internal/network/handler.go:166 | a decimal string past the `uint64` range is a range error and reads as the largest `uint64` |
| Pkcs7.PadCount | internal/utils/decrypt_new.go:66 | the pad count is between 1 and the block size, and completes a whole block |
| Pkcs7.Pad | internal/utils/decrypt_new.go:65-69 | the input is kept as a prefix; the result is whole blocks; every added byte is the pad count modulo 256 |
| Pkcs7.Unpad | internal/utils/decrypt_new.go:71-81 | empty input and a last byte above the length are the two errors (each if and only if); otherwise exactly last-byte many bytes are dropped from the end |
| Pkcs7.PadRoundTrip | internal/utils/decrypt_new.go:65-81 | unpadding undoes padding for every block size up to 255 |
| Pkcs7.UnpadDoesNotCheckPadBytes | internal/utils/decrypt_new.go:76-80 | the dropped bytes are not inspected: `[7, 9, 2]` unpads to `[7]` |
| Pkcs7.UnpadZeroKeepsInput | internal/utils/decrypt_new.go:76-80 | a trailing zero byte unpads to the whole input |
| Pkcs7.WideBlockBreaksRoundTrip | internal/utils/decrypt_new.go:67 | with a 256-byte block the `byte(padding)` conversion makes the pad byte 0, so unpadding returns the 256 pad bytes |
| AesCbc.XorNatTwice | internal/utils/decrypt_new.go:104 | XOR with the same value twice is the identity |
| AesCbc.CbcRoundTrip | internal/utils/decrypt_new.go:89-104 | CBC decryption inverts CBC encryption under any key and IV, given a block cipher whose decryption inverts encryption |
| AesCbc.EncryptAesCbc | internal/utils/decrypt_new.go:83-93 | succeeds exactly for a 16/24/32-byte key and a one-block IV; a bad key is a key-size error; the ciphertext is the padded length, whole blocks, and longer than the plaintext by at most one block |
| AesCbc.DecryptAesCbc | internal/utils/decrypt_new.go:95-106 | a failed ECDH reads as a key-size error for the empty key, and any invalid derived key is a key-size error; with a valid key, an IV that is not one block or a ciphertext that is not whole blocks panics; otherwise the result is exactly `unpadPKCS7` of the CBC decryption, its error wrapped as a padding error; empty ciphertext is the "data is empty" unpadding error |
| AesCbc.EncryptDecryptRoundTrip | internal/utils/decrypt_new.go:83-106 | decrypting with the ECDH key the client encrypted with recovers the plaintext |
| Processor.ValidateCard | internal/utils/send.go:22-27 | the card is rejected exactly when its expiry year is not four bytes long |
| Processor.ValidCardExpDate | internal/utils/send.go:51 | a valid card with a one- or two-byte month gives a seven-byte expiry date |
| Processor.PadLeft | internal/utils/send.go:128-133 | the result ends with the input, is preceded only by whole copies of the pad, reaches the length, is unchanged when already long enough, and stops as soon as the length is reached |
| Processor.ExpDate | internal/utils/send.go:51 | starts with the year and a dash and ends with the month, and every character between them is `0`; a month of at most two bytes gives a result three bytes longer than the year, and a longer month is kept unchanged |
| Processor.WalletTo | internal/utils/send.go:53 | the forty hex digits of the merchant address, without `0x` |
| Processor.GenerateTxId | internal/utils/send.go:136-147 | fourteen characters: `tx_` and eleven lower-case hex digits |
| Processor.TxIdCarriesRandomBytes | internal/utils/send.go:137-139 | the ten middle digits decode to the five random bytes |
| Processor.Int64Of | internal/utils/send.go:52 | `amount.Int64()` lies in the `int64` range and agrees with the amount modulo 2^64 |
| Processor.Int64Narrowing | internal/utils/send.go:52 | amounts below 2^63 are sent unchanged; 2^63 becomes the most negative `int64`; narrowing has period 2^64 |
| Processor.BuildPayload | internal/utils/send.go:47-56 | merchant id `pos123` and fee payer 1; the card number, CVV and narrowed amount are carried over; the transaction id is `generateTxID` of the random bytes; the expiry is `ExpDate` of the card; the wallet is the address without `0x` |
| Processor.ClassifyReply | internal/utils/send.go:98-124 | "success" anywhere wins, then "being processed"; otherwise the decoded JSON response, or "failed" with the body as message when the body is not JSON |
| Processor.MarkerRepliesAreTagged | internal/utils/send.go:98-111 | a marker reply carries the generated id and the raw body, and its status names the marker that matched |
| Processor.SendToThirdParty | internal/utils/send.go:28-126 | an invalid card returns the zero response and the error before any request; a valid card sends the built payload; there is an error exactly when the card is invalid or the transport failed, and then the response is zero; otherwise the received body is classified under the payload's transaction id |
| Processor.UpdateStatus | internal/utils/send.go:148-201 | every failure collapses to the empty status; the status of a received body that decodes is exactly its decoded status |
| Processor.FailedPollIsInconclusive | internal/utils/send.go:177-181 | a failed poll contains neither "success" nor "transaction not exists" |
| Gateway.FromReceipt | internal/services/sendTx.go:120-132 | a receipt that is not "returned" yields its return data in hex; a returned one is acknowledged when nothing is to be unpacked, and otherwise gives the unpacked map or an unpack error (each if and only if) |
| Gateway.ReturnHexRecoversData | internal/services/sendTx.go:132 | the hex of a failed receipt decodes back to its return data |
| Gateway.SendTransactionAndGetResult | internal/services/sendTx.go:92-144 | a budget of zero or less never submits and is "unexpected"; otherwise at most the budget is submitted; every submission before the last timed out; a final timeout uses the whole budget; the last outcome decides the result |
| Gateway.SendAgreesWithOutcome | internal/services/sendTx.go:92-144 | the retry loop equals the declarative reference: the first outcome that is not a timeout decides; submissions are that index plus one, or the whole budget |
| Gateway.Call | internal/services/sendTx.go:169 | the result is the declarative outcome of the retry loop under the method's budget and unpack target; `submitToken` may retry up to three times and every other method submits once; the result is a timeout exactly when every budgeted attempt timed out; only the two writes are acknowledged without unpacking |
| Gateway.CallVerifyPublicKey | internal/services/sendTx.go:211-230 | errors pass through; a map yields its unnamed entry, or nothing when the map lacks it; any other successful result passes through unchanged |
| Registry.EmptyValid | internal/network/handler.go:67 | the empty registry satisfies the registry invariant |
| Registry.Register | internal/network/handler.go:499-506 | the transaction maps to a fresh token; any previous monitor of that transaction is cancelled and nothing else is; the invariant is preserved |
| Registry.Remove | internal/network/handler.go:246-252 | the entry is gone and its monitor cancelled; other entries are untouched; an absent entry changes nothing; the invariant is preserved |
| Registry.CancelledOnlyGrows | internal/network/handler.go:246-252 | neither operation un-cancels a monitor |
| Registry.SecondRegistrationSupersedes | internal/network/handler.go:502-505 | registering a transaction twice cancels the first monitor and keeps the second live |
| Registry.RemoveCancelsRegistered | internal/network/handler.go:247-249 | removing a registered transaction cancels its monitor and leaves no entry |
| Monitor.Verdict | internal/network/handler.go:519-552 | success takes precedence: status 2 "success", then mint, then the pool read, each made exactly when the previous call succeeded; a missing transaction writes status 0 "fail"; the charge is settled exactly when all three calls succeed |
| Monitor.FirstDecisive | internal/network/handler.go:511-556 | the first round in the budget that is a cancellation or a decisive status; every earlier round was neither |
| Monitor.MonitorFrom | internal/network/handler.go:511-557 | the run is decided by the first decisive round: with none, five polls and no call; a cancellation stops before that round's poll with no call; a decisive status makes that round's calls |
| Monitor.MonitorTransaction | internal/network/handler.go:510-558 | at most five polls and three calls, all about the watched transaction; no call exactly when cancelled or out of polls |
| Monitor.CancelledFirstWritesNothing | internal/network/handler.go:513-515 | a monitor cancelled before its first poll makes no call |
| Monitor.InconclusivePollsWriteNothing | internal/network/handler.go:511-557 | five inconclusive polls end the monitor with nothing written |
| Monitor.SuccessWinsOverMissing | internal/network/handler.go:519-545 | a status that mentions both markers is treated as success |
| Monitor.MintOnlyAfterSettledUpdate | internal/network/handler.go:525-535 | a mint is only ever the second call, after a successful status-2 write |
| Dispatcher.TokenKey | internal/network/handler.go:398 | `token_` followed by 64 lower-case hex digits that decode back to the token id |
| Dispatcher.TokenKeyInjective | internal/network/handler.go:398 | distinct tokens have distinct keys, and no token key is the `lastBlock` checkpoint key |
| Dispatcher.SplitBlob | internal/network/handler.go:345-349 | a 65-byte public key, a one-block IV, and the ciphertext; together they make up the blob |
| Dispatcher.OpenCard | internal/network/handler.go:345-361 | a blob under 81 bytes panics; otherwise a blob whose parts decrypt and parse opens to that card, one whose plaintext does not parse is dropped, and a decryption failure stays a panic exactly when the decryption panicked |
| Dispatcher.BlobRoundTrip | internal/network/handler.go:345-361 | a blob made of the client's public key, the IV and the AES-CBC encryption of the card's JSON under the shared ECDH key opens to that card |
| Dispatcher.DecodeTokenRequest | internal/network/handler.go:327-375 | succeeds exactly when the event unpacks, the server key is hex, the blob is present, the card decrypts and parses, and user and request id decode; it then carries those values, and a failure is never a completion |
| Dispatcher.HandleTokenRequest | internal/network/handler.go:325-409 | a failure before the chain call has no effect and leaves the bridge unchanged; otherwise the fresh token is submitted first, under region VN, with the user, the request id and the card's hash; the blob is stored under the token's key exactly when the submission succeeded and the database is open; it completes exactly when, in addition, the write succeeds, and then only that entry changes |
| Dispatcher.ChargeBranch | internal/network/handler.go:466-491 | declined exactly for a "failed" status whose message does not mention a pending failure; approved exactly for "success" |
| Dispatcher.StartWatch | internal/network/handler.go:499-507 | the registry is updated as `Register` says; the old monitor's cancellation, if any, precedes the new monitor's start |
| Dispatcher.SettleCharge | internal/network/handler.go:464-508 | a decline writes status 0 with the message; an approval spawns the status-2 write and the mint and starts no monitor; a pending charge writes status 1 and, only if that succeeds, starts a monitor; the store is untouched |
| Dispatcher.ChargeCard | internal/network/handler.go:465-508 | the store is untouched and the registry invariant kept; a valid card is charged first, with the payload built from it, and an invalid one never reaches the processor; the registry changes only when a monitor starts |
| Dispatcher.SuccessReplySettles | internal/network/handler.go:465-489 | a reply with the success marker charges, spawns the status-2 "success" write and then the mint, both under the generated transaction id, and completes |
| Dispatcher.ProcessingReplyStartsMonitor | internal/network/handler.go:465-508 | a reply with only the processing marker writes status 1 "being processed" under the generated id; it completes exactly when that write succeeds, and then ends by starting a monitor for that id |
| Dispatcher.UnreadableReplyDeclines | internal/network/handler.go:465-473 | a body that is neither a marker reply, JSON, nor a pending failure writes status 0 with the body as reason, and changes nothing |
| Dispatcher.DeclinedSettles | internal/network/handler.go:466-473 | a declined charge writes status 0 with the processor's message and nothing else, and completes exactly when that write succeeds |
| Dispatcher.ChargedResponse | internal/network/handler.go:465 | a valid card with a reply body sends the built payload, and the response is the body classified under that payload's id |
| Dispatcher.ChargeStoredCard | internal/network/handler.go:435-508 | when the server key, the stored blob's decryption, the amount and the merchant all decode, the step is `ChargeCard` of the card decrypted from the stored blob; a bad server key, or a blob that fails to open, ends the event with no effect and with the decryption's own panic or drop; the store is untouched, the registry invariant is kept, and the registry changes only when a monitor starts |
| Dispatcher.HandleChargeRequest | internal/network/handler.go:411-509 | when the event decodes and the token's blob is found, the step is `ChargeStoredCard` of that token; otherwise nothing happens; the store is never written; the registry invariant is kept; the registry changes only when a monitor starts |
| Dispatcher.HandleRequestUpdateTxStatus | internal/network/handler.go:228-292 | the store is untouched; the registry changes only by removing the transaction's monitor; a status write happens only after the read-back and a poll, only for on-chain status 1; when the event and the read-back decode with status 1, the last effect writes 2 "success" if the poll reports success and otherwise 1 with the stored reason, and the handler completes exactly when that write succeeds; any other status completes after the read-back |
| Dispatcher.RecheckStoredTx | internal/network/handler.go:263-291 | a missing status or reason drops the handler; a status other than 1 completes with nothing more; status 1 polls and writes 2 "success" or 1 with the stored reason |
| Dispatcher.HandleChargeRejected | internal/network/handler.go:293-324 | no effect and no state change; it completes exactly when user, token id and reason decode |
| Dispatcher.HandleEvent | internal/network/handler.go:214-227 | no topics panics; the first topic routes to the token, charge, rejection or status handler, in that order of precedence; an unknown topic is ignored; the registry invariant is kept; the only store entry that can change is the new token's |
| Dispatcher.TokenThenCharge | internal/network/handler.go:398-465 | after a completed token request, a charge for that token decrypts the same card and charges the processor with it |
| Dispatcher.ExchangeErrorReadsAsPending | internal/network/handler.go:465-491 | an invalid card or an unreachable processor yields the zero response, which reads as pending under the empty transaction id |
| Dispatcher.ExchangeErrorChargesPending | internal/network/handler.go:465-507 | after an invalid card or an unreachable processor the charge settles the zero response: only a valid card reached the processor, status 1 "being processed" is written under the empty transaction id, the handler completes exactly when that write succeeds, and then a monitor for the empty id is started last |
| Dispatcher.ReplyBodyBranches | internal/network/handler.go:466-491 | the success marker approves; the processing marker leaves the charge pending; a body that is neither is declined unless it mentions a pending failure |
| Dispatcher.StatusRequestStopsMonitor | internal/network/handler.go:246-252 | a status request cancels the transaction's running monitor before reading it back |
| Dispatcher.PendingChargeSupersedesMonitor | internal/network/handler.go:501-506 | a second pending charge under the same transaction id cancels the running monitor before starting a new one |
| Ingest.CheckpointBytes | internal/network/handler.go:144 | the stored checkpoint is non-empty |
| Ingest.CheckpointRoundTrip | internal/network/handler.go:196-205 | reading back a written checkpoint gives the block number |
| Ingest.Start | internal/network/handler.go:124-154 | no database means no listening; a non-empty stored checkpoint is resumed from; without one, a head failure ends the listener, and a readable head seeds the start and is written as the checkpoint exactly when the write succeeds |
| Ingest.Decoded | internal/network/handler.go:187-194 | only entries that decode are forwarded, and all of them when every entry decodes; a single entry gives its event or nothing |
| Ingest.DecodedAll | internal/network/handler.go:187-194 | when every entry decodes, each event is the decoding of the entry at the same position |
| Ingest.DecodedAppend | internal/network/handler.go:187-194 | decoding keeps order: the decoding of a concatenation is the concatenation of the decodings |
| Ingest.UndecodableEntryIsSkipped | internal/network/handler.go:189-192 | an undecodable entry is dropped and the entries around it are still forwarded, in order |
| Ingest.Collect | internal/network/handler.go:174-195 | no more events than fetched entries; a single failed fetch gives nothing, a single successful one gives its decoded entries |
| Ingest.CollectAppend | internal/network/handler.go:174-195 | topics contribute in order: collecting a concatenation of fetches concatenates their events |
| Ingest.FailedFetchIsSkipped | internal/network/handler.go:181-185 | a failed fetch contributes nothing and the other topics' events are still forwarded, in order |
| Ingest.Cycle | internal/network/handler.go:155-208 | a range is scanned exactly when the head is read and is past the checkpoint; otherwise nothing changes; a scan queries every topic over one block past the checkpoint up to the head, forwards the collected events, follows the write outcome for the checkpoint, and advances the listener to the head |
| Ingest.ScanSkipsStatusRequests | internal/network/handler.go:173 | a cycle over the listener's topics queries token requests, charge requests and rejections, in that order, and never the status-request topic when its hash differs from theirs |
| Ingest.QueryBoundsDenoteRange | internal/network/handler.go:177-178 | the query bounds parse back to the scanned range |
| Ingest.FailedFetchIsNotRetried | internal/network/handler.go:181-205 | a failed topic fetch does not hold back the checkpoint, and the cycle forwards the other topics' events as if that topic were absent |
| Ingest.RestartResumes | internal/network/handler.go:152-153 | after a cycle whose checkpoint write succeeded, a restart resumes exactly there |
| Ingest.Run | internal/network/handler.go:155-209 | scanned ranges are non-empty, contiguous and increasing, from just past the first checkpoint to the last |
| Ingest.RangesDisjoint | internal/network/handler.go:155-209 | no block is scanned twice |

## Left out

- ABI packing, the `Pack` error branch of each method wrapper and the calldata `Marshal` error are not modelled. The ABI decoder is a parameter.
- The JSON encoding of the charge payload and its marshal error are not modelled. The payload is a record, and a marshal of strings and integers cannot fail here.
- HTTP is not modelled: headers, URLs, the request-building error and the 10-second poll timeout. Each exchange is one `HttpReply`. The poll body interpolates the transaction id without escaping.
- Time, sleeps and the 60-second receipt wait are not modelled. A timeout is an input outcome.
- Logging is not modelled.
- Goroutine scheduling is not modelled. The two spawned writes of an approved charge are recorded in spawn order, but their replies and relative order are not. A monitor runs as its own function. Its cancellation is an input event that corresponds to its registry token being cancelled. The race between the timer and the cancellation in one round is resolved by the input.
- The hex decoding of the ECDH shared secret is folded into the `Ecdh` parameter.
- The AES block function and secp256k1 ECDH are parameters, with only the property that decryption inverts encryption.
- `database.ReadValueStorage` and `WriteValueStorage` are not part of this model. A read is a map lookup: a missing key or a closed database is a failed read. A write's success is an input.
- `VerifyPublicKey` in the handler, `app`, `config`, `contract/main.go` and the event subscription are outside the modelled core. The scan forwards events on a channel, and `app.go`'s loop hands its own subscription's events to `HandleConnectSmartContract`. Both are represented by calling `Dispatcher.HandleEvent` on an event.
- ListenEvents setup failures are not modelled: reading the ABI file and deriving the topic hashes. Either failure ends the listener before the checkpoint logic.
- The topic hashes are inputs. Routing compares the first topic with them in the order the cases are listed.
- The scan fetches only token-request, charge-request and rejection logs (`Ingest.ScannedTopics`). Status requests reach `Dispatcher.HandleEvent` only through `app.go`'s own subscription, which is not part of this model.
- Strconv.ParseUint: underscore digit separators are not accepted. With base 0 Go accepts them wherever Go integer literals allow them, plain decimal such as `1_000` included; here they are a syntax error. No checkpoint the bridge writes and no RPC quantity contains `_`.
- Processor.PadLeft: requires a non-empty pad or a string already long enough. With an empty pad and a short string the Go loop never terminates.
- Processor.GenerateTxId: takes its six random bytes as input. The ignored `rand.Read` error is not modelled.
- Dispatcher.HandleTokenRequest: `GenerateTokenID` is the `newTokenId` input. Its SHA-256 over 64 random bytes is not modelled.
- Gateway.Call: the `interface{}` results are a closed datatype of the shapes the handlers inspect.
- Monitor.MonitorTransaction: the `status == "success"` test is subsumed by the `Contains` test and is kept only for faithfulness.
- The `uint64(atTime)` conversion is not modelled. The clock is a natural number of Unix seconds.
- `fromBlock + 1` cannot wrap: the loop only queries when the head, a `uint64`, is above the checkpoint.

=== FILE: aescbc.dfy ===
/** `EncryptAESCBC` and `DecryptAESCBC`: AES in CBC mode with PKCS#7 padding, keyed for decryption by an
    ECDH shared secret. The AES block function and the ECDH derivation are parameters; the CBC chaining
    of NIST SP 800-38A is written out over them so that the round trip can be stated. */
module AesCbc {
  import opened Wrappers
  import opened Bytes
  import Pkcs7

  const BlockSize: nat := 16

  type Block = s: seq<byte> | |s| == 16 witness seq(16, _ => 0)

  /** A block cipher keyed by a byte string: AES-128/192/256 as far as this model is concerned. */
  datatype BlockCipher = BlockCipher(encrypt: (seq<byte>, Block) -> Block, decrypt: (seq<byte>, Block) -> Block)

  /** The defining property of a block cipher used here: decryption inverts encryption under one key. */
  ghost predicate Inverts(c: BlockCipher) {
    forall key, b :: c.decrypt(key, c.encrypt(key, b)) == b
  }

  /** `aes.NewCipher` accepts exactly these key lengths. */
  predicate ValidKeySize(key: seq<byte>) {
    |key| == 16 || |key| == 24 || |key| == 32
  }

  /** Failures of the two functions: `aes.KeySizeError`, an unpadding error, or a panic inside
      `crypto/cipher` (wrong IV length, input not a whole number of blocks). */
  datatype CryptoError = KeySize(size: nat) | BadPadding(reason: Pkcs7.PadError) | Panic(message: string)

  /** Bitwise exclusive or of two naturals, lowest bit first. */
  function XorNat(a: nat, b: nat): nat
    decreases a + b
  {
    if a == 0 && b == 0 then 0
    else 2 * XorNat(a / 2, b / 2) + (if a % 2 == b % 2 then 0 else 1)
  }

  function Pow2(n: nat): (p: nat)
    ensures p >= 1
  {
    if n == 0 then 1 else 2 * Pow2(n - 1)
  }

  lemma {:induction false} XorNatBound(a: nat, b: nat, n: nat)
    requires a < Pow2(n) && b < Pow2(n)
    ensures XorNat(a, b) < Pow2(n)
    decreases n
  {
    if n > 0 && !(a == 0 && b == 0) {
      XorNatBound(a / 2, b / 2, n - 1);
    }
  }

  lemma {:induction false} XorNatZero(a: nat)
    ensures XorNat(a, 0) == a
    decreases a
  {
    if a != 0 {
      XorNatZero(a / 2);
    }
  }

  /** XOR with the same value twice is the identity, which is what lets CBC decryption undo encryption. */
  lemma {:induction false} XorNatTwice(a: nat, b: nat)
    ensures XorNat(XorNat(a, b), b) == a
    decreases a + b
  {
    var x := XorNat(a, b);
    if a == 0 && b == 0 {
    } else if x == 0 && b == 0 {
      XorNatZero(a);
    } else {
      XorNatTwice(a / 2, b / 2);
      assert x / 2 == XorNat(a / 2, b / 2);
    }
  }

  function XorByte(a: byte, b: byte): (r: byte)
  {
    assert Pow2(8) == 256;
    XorNatBound(a, b, 8);
    XorNat(a, b)
  }

  function Xor(a: Block, b: Block): (r: Block)
    ensures forall i :: 0 <= i < 16 ==> r[i] == XorByte(a[i], b[i])
  {
    seq(16, i requires 0 <= i < 16 => XorByte(a[i], b[i]))
  }

  lemma XorTwice(a: Block, b: Block)
    ensures Xor(Xor(a, b), b) == a
  {
    var r := Xor(Xor(a, b), b);
    forall i | 0 <= i < 16
      ensures r[i] == a[i]
    {
      XorNatTwice(a[i], b[i]);
    }
  }

  /** CBC encryption: each plaintext block is XORed with the previous ciphertext block (the IV first). */
  function CbcEncrypt(c: BlockCipher, key: seq<byte>, iv: Block, plain: seq<byte>): (ct: seq<byte>)
    requires |plain| % BlockSize == 0
    ensures |ct| == |plain|
    decreases |plain|
  {
    if plain == [] then []
    else
      var block := c.encrypt(key, Xor(plain[..16], iv));
      block + CbcEncrypt(c, key, block, plain[16..])
  }

  /** CBC decryption: each decrypted block is XORed with the previous ciphertext block. */
  function CbcDecrypt(c: BlockCipher, key: seq<byte>, iv: Block, ct: seq<byte>): (plain: seq<byte>)
    requires |ct| % BlockSize == 0
    ensures |plain| == |ct|
    decreases |ct|
  {
    if ct == [] then []
    else Xor(c.decrypt(key, ct[..16]), iv) + CbcDecrypt(c, key, ct[..16], ct[16..])
  }

  lemma {:induction false} CbcRoundTrip(c: BlockCipher, key: seq<byte>, iv: Block, plain: seq<byte>)
    requires Inverts(c)
    requires |plain| % BlockSize == 0
    ensures CbcDecrypt(c, key, iv, CbcEncrypt(c, key, iv, plain)) == plain
    decreases |plain|
  {
    if plain != [] {
      var first: Block := plain[..16];
      var block := c.encrypt(key, Xor(first, iv));
      var rest := CbcEncrypt(c, key, block, plain[16..]);
      var ct: seq<byte> := block + rest;
      assert CbcEncrypt(c, key, iv, plain) == ct;
      assert ct[..16] == block && ct[16..] == rest;
      XorTwice(first, iv);
      CbcRoundTrip(c, key, block, plain[16..]);
      assert first + plain[16..] == plain;
    }
  }

  /** `EncryptAESCBC`: the key is checked first, the plaintext is padded to whole blocks, and
      `cipher.NewCBCEncrypter` panics on an IV that is not one block long. */
  function EncryptAesCbc(c: BlockCipher, key: seq<byte>, plaintext: seq<byte>, iv: seq<byte>): (r: Result<seq<byte>, CryptoError>)
    ensures r.Success? <==> ValidKeySize(key) && |iv| == BlockSize
    ensures !ValidKeySize(key) ==> r == Failure(KeySize(|key|))
    ensures r.Success? ==> |r.value| == |Pkcs7.Pad(plaintext, BlockSize)|
    ensures r.Success? ==> |r.value| % BlockSize == 0 && |plaintext| < |r.value| <= |plaintext| + BlockSize
  {
    if !ValidKeySize(key) then Failure(KeySize(|key|))
    else
      var padded := Pkcs7.Pad(plaintext, BlockSize);
      if |iv| != BlockSize then Failure(Panic("cipher.NewCBCEncrypter: IV length must equal block size"))
      else Success(CbcEncrypt(c, key, iv, padded))
  }

  /** The ECDH derivation: the server's private key and the client's public key give the AES key,
      or fail (a point off the curve, a malformed key). */
  type Ecdh = (seq<byte>, seq<byte>) -> Option<seq<byte>>

  /** `DecryptAESCBC`: the ECDH error and the hex-decoding error of the shared secret are discarded,
      so a failed derivation surfaces only as the empty key's `KeySize(0)`; the result is whatever
      `unpadPKCS7` makes of the decrypted blocks. */
  function DecryptAesCbc(c: BlockCipher, ecdh: Ecdh, ciphertext: seq<byte>, privateKey: seq<byte>, publicKey: seq<byte>, iv: seq<byte>): (r: Result<seq<byte>, CryptoError>)
    ensures ecdh(privateKey, publicKey).None? ==> r == Failure(KeySize(0))
    ensures r.Success? ==> ecdh(privateKey, publicKey).Some? && ValidKeySize(ecdh(privateKey, publicKey).value)
    ensures r.Success? ==> |iv| == BlockSize && |ciphertext| % BlockSize == 0 && |r.value| <= |ciphertext|
    ensures ciphertext == [] && |iv| == BlockSize && ecdh(privateKey, publicKey).Some? && ValidKeySize(ecdh(privateKey, publicKey).value)
            ==> r == Failure(BadPadding(Pkcs7.DataEmpty))
    ensures var key := ecdh(privateKey, publicKey).GetOr([]);
            ValidKeySize(key) && |iv| == BlockSize && |ciphertext| % BlockSize == 0 ==>
              && (r.Failure? ==> r.error.BadPadding?)
              && (r.Success? ==> r.value == CbcDecrypt(c, key, iv, ciphertext)[..|r.value|])
    ensures var key := ecdh(privateKey, publicKey).GetOr([]);
            !ValidKeySize(key) ==> r == Failure(KeySize(|key|))
    ensures var key := ecdh(privateKey, publicKey).GetOr([]);
            ValidKeySize(key) && (|iv| != BlockSize || |ciphertext| % BlockSize != 0) ==> r.Failure? && r.error.Panic?
    ensures var key := ecdh(privateKey, publicKey).GetOr([]);
            ValidKeySize(key) && |iv| == BlockSize && |ciphertext| % BlockSize == 0 ==>
              var u := Pkcs7.Unpad(CbcDecrypt(c, key, iv, ciphertext));
              && (u.Failure? ==> r == Failure(BadPadding(u.error)))
              && (u.Success? ==> r == Success(u.value))
  {
    var key := ecdh(privateKey, publicKey).GetOr([]);
    if !ValidKeySize(key) then Failure(KeySize(|key|))
    else if |iv| != BlockSize then Failure(Panic("cipher.NewCBCDecrypter: IV length must equal block size"))
    else if |ciphertext| % BlockSize != 0 then Failure(Panic("crypto/cipher: input not full blocks"))
    else
      match Pkcs7.Unpad(CbcDecrypt(c, key, iv, ciphertext))
      case Success(plain) => Success(plain)
      case Failure(e) => Failure(BadPadding(e))
  }

  /** Decryption with the key the client derived recovers the card payload it encrypted. */
  lemma EncryptDecryptRoundTrip(c: BlockCipher, ecdh: Ecdh, key: seq<byte>, plaintext: seq<byte>,
                                privateKey: seq<byte>, publicKey: seq<byte>, iv: seq<byte>)
    requires Inverts(c)
    requires ecdh(privateKey, publicKey) == Some(key) && ValidKeySize(key)
    requires |iv| == BlockSize
    ensures EncryptAesCbc(c, key, plaintext, iv).Success?
    ensures DecryptAesCbc(c, ecdh, EncryptAesCbc(c, key, plaintext, iv).value, privateKey, publicKey, iv) == Success(plaintext)
  {
    var padded := Pkcs7.Pad(plaintext, BlockSize);
    CbcRoundTrip(c, key, iv, padded);
    Pkcs7.PadRoundTrip(plaintext, BlockSize);
  }
}

=== FILE: bytes.dfy ===
/** Bytes, fixed-size byte arrays, Go's `encoding/hex` and Go's string/[]byte conversions. */
module Bytes {
  import opened Wrappers

  /** Go's `byte`, as the integer it holds. */
  type byte = x: int | 0 <= x < 256

  /** Go's `[32]byte`: token ids, request ids and SHA-256 digests. */
  type Bytes32 = s: seq<byte> | |s| == 32 witness seq(32, i => 0)

  /** A chain address as `common.Address.Hex()` prints it: "0x" and forty hex digits (the EIP-55
      letter case is taken as given). */
  type Address = s: string | |s| == 42 && s[0] == '0' && s[1] == 'x' witness "0x0000000000000000000000000000000000000000"

  /** The character of one hexadecimal digit, lower-case as `hex.EncodeToString` and `%x` write it. */
  function HexDigit(d: nat): (c: char)
    requires d < 16
    ensures IsLowerHex(c)
  {
    if d < 10 then ('0' as int + d) as char else ('a' as int + d - 10) as char
  }

  predicate IsLowerHex(c: char) {
    ('0' <= c <= '9') || ('a' <= c <= 'f')
  }

  /** The value of one hexadecimal digit; `hex.DecodeString` accepts both cases. */
  function HexValue(c: char): (r: Option<nat>)
    ensures r.Some? ==> r.value < 16
    ensures r.Some? <==> ('0' <= c <= '9') || ('a' <= c <= 'f') || ('A' <= c <= 'F')
  {
    if '0' <= c <= '9' then Some(c as int - '0' as int)
    else if 'a' <= c <= 'f' then Some(c as int - 'a' as int + 10)
    else if 'A' <= c <= 'F' then Some(c as int - 'A' as int + 10)
    else None
  }

  lemma HexValueOfDigit(d: nat)
    requires d < 16
    ensures HexValue(HexDigit(d)) == Some(d)
  {
  }

  /** `hex.EncodeToString`: two lower-case digits per byte, high nibble first. */
  function HexEncode(bs: seq<byte>): (s: string)
    ensures |s| == 2 * |bs|
    ensures forall i :: 0 <= i < |s| ==> IsLowerHex(s[i])
  {
    if bs == [] then []
    else [HexDigit(bs[0] / 16), HexDigit(bs[0] % 16)] + HexEncode(bs[1..])
  }

  /** `hex.DecodeString`, with the error collapsed to `None` (odd length or a non-hex character). */
  function HexDecode(s: string): (r: Option<seq<byte>>)
    ensures r.Some? ==> 2 * |r.value| == |s|
    decreases |s|
  {
    if s == [] then Some([])
    else if |s| == 1 then None
    else
      match (HexValue(s[0]), HexValue(s[1]), HexDecode(s[2..]))
      case (Some(hi), Some(lo), Some(rest)) => Some([hi * 16 + lo] + rest)
      case _ => None
  }

  /** Byte `i` of a successful decode is the value of digits `2i` (high) and `2i + 1` (low). */
  lemma {:induction false} HexDecodeDigits(s: string)
    requires HexDecode(s).Some?
    ensures forall i :: 0 <= i < |s| ==> HexValue(s[i]).Some?
    ensures var bs := HexDecode(s).value;
            forall i :: 0 <= i < |bs| ==> bs[i] == HexValue(s[2 * i]).value * 16 + HexValue(s[2 * i + 1]).value
    decreases |s|
  {
    if s != [] {
      var tail := s[2..];
      HexDecodeDigits(tail);
      var bs := HexDecode(s).value;
      var rest := HexDecode(tail).value;
      assert bs == [bs[0]] + rest;
      forall i | 2 <= i < |s|
        ensures HexValue(s[i]).Some?
      {
        assert s[i] == tail[i - 2];
      }
      forall i | 1 <= i < |bs|
        ensures bs[i] == HexValue(s[2 * i]).value * 16 + HexValue(s[2 * i + 1]).value
      {
        assert bs[i] == rest[i - 1];
        assert s[2 * i] == tail[2 * (i - 1)] && s[2 * i + 1] == tail[2 * (i - 1) + 1];
      }
    }
  }

  /** `hex.DecodeString` fails exactly on an odd length or a character that is not a hex digit. */
  lemma {:induction false} HexDecodeFails(s: string)
    ensures HexDecode(s).None? <==> |s| % 2 == 1 || exists i :: 0 <= i < |s| && HexValue(s[i]).None?
    decreases |s|
  {
    if |s| >= 2 {
      HexDecodeFails(s[2..]);
      if HexDecode(s[2..]).None? && |s[2..]| % 2 == 0 {
        var i :| 0 <= i < |s[2..]| && HexValue(s[2..][i]).None?;
        assert HexValue(s[i + 2]).None?;
      }
      if HexValue(s[0]).Some? && HexValue(s[1]).Some? && HexDecode(s[2..]).Some? {
        forall i | 0 <= i < |s|
          ensures HexValue(s[i]).Some?
        {
          if i >= 2 {
            assert s[i] == s[2..][i - 2];
          }
        }
      }
    } else if |s| == 0 {
      assert HexDecode(s) == Some([]);
    }
  }

  /** Two hex digits of either case decode to one byte. */
  lemma HexDecodeTwo(a: char, b: char)
    requires HexValue(a).Some? && HexValue(b).Some?
    ensures HexDecode([a, b]) == Some([HexValue(a).value * 16 + HexValue(b).value])
  {
    var s := [a, b];
    assert s[0] == a && s[1] == b && s[2..] == [];
    assert HexDecode(s[2..]) == Some([]);
    var v: byte := HexValue(a).value * 16 + HexValue(b).value;
    assert [v] + [] == [v];
  }

  /** `hex.DecodeString` reads upper-case digits like lower-case ones. */
  lemma HexDecodeEitherCase()
    ensures HexDecode(['a', 'B']) == Some([171])
    ensures HexDecode(['A', 'b']) == HexDecode(['a', 'b'])
  {
    HexDecodeTwo('a', 'B');
    HexDecodeTwo('A', 'b');
    HexDecodeTwo('a', 'b');
  }

  lemma HexDecodePair(hi: nat, lo: nat, rest: string)
    requires hi < 16 && lo < 16
    ensures HexDecode([HexDigit(hi), HexDigit(lo)] + rest)
         == match HexDecode(rest)
            case Some(r) => Some([hi * 16 + lo] + r)
            case None => None
  {
    var s := [HexDigit(hi), HexDigit(lo)] + rest;
    HexValueOfDigit(hi);
    HexValueOfDigit(lo);
    assert s[2..] == rest;
  }

  /** Decoding undoes encoding, so `hex(tokenId)` names exactly one token id. */
  lemma {:induction false} HexRoundTrip(bs: seq<byte>)
    ensures HexDecode(HexEncode(bs)) == Some(bs)
  {
    if bs != [] {
      var b := bs[0];
      var hi, lo := b / 16, b % 16;
      var rest := HexEncode(bs[1..]);
      assert HexEncode(bs) == [HexDigit(hi), HexDigit(lo)] + rest;
      HexRoundTrip(bs[1..]);
      HexDecodePair(hi, lo, rest);
      assert [hi * 16 + lo] + bs[1..] == bs;
    }
  }

  lemma HexEncodeInjective(a: seq<byte>, b: seq<byte>)
    requires HexEncode(a) == HexEncode(b)
    ensures a == b
  {
    HexRoundTrip(a);
    HexRoundTrip(b);
  }

  /** Go's `string(b)` for a byte slice: one character per byte. */
  function BytesToString(bs: seq<byte>): (s: string)
    ensures |s| == |bs|
    ensures forall i :: 0 <= i < |bs| ==> s[i] as int == bs[i]
  {
    seq(|bs|, i requires 0 <= i < |bs| => bs[i] as char)
  }

  predicate IsByteString(s: string) {
    forall i :: 0 <= i < |s| ==> s[i] as int < 256
  }

  /** Go's `[]byte(s)` for a string whose characters are all single bytes (ASCII digits, hex). */
  function StringToBytes(s: string): (bs: seq<byte>)
    requires IsByteString(s)
    ensures |bs| == |s|
    ensures forall i :: 0 <= i < |s| ==> bs[i] == s[i] as int
  {
    seq(|s|, i requires 0 <= i < |s| => s[i] as int)
  }

  lemma StringBytesRoundTrip(s: string)
    requires IsByteString(s)
    ensures BytesToString(StringToBytes(s)) == s
  {
    var t := BytesToString(StringToBytes(s));
    assert forall i :: 0 <= i < |s| ==> t[i] as int == s[i] as int;
  }
}

=== FILE: dispatcher.dfy ===
/** `HandleConnectSmartContract` and its four handlers. Each handler is a function from the bridge's
    state, one event and the answers of the outside world (randomness, clock, processor, chain,
    storage) to the new state, the effects it caused in order, and how it ended. */
module Dispatcher {
  import opened Wrappers
  import opened Bytes
  import opened Strings
  import opened Gateway
  import opened Processor
  import AesCbc
  import Registry
  import Monitor

  /** The persistent part of the bridge: the key-value store (`DB == nil` when it failed to open)
      and the monitor registry. */
  datatype Bridge = Bridge(store: map<string, seq<byte>>, dbOpen: bool, registry: Registry.Registry)

  /** An event log as the chain subscription delivers it. */
  datatype EventLog = EventLog(topics: seq<string>, data: string)

  /** The topic-0 hashes of the four events the contract emits. */
  datatype Topics = Topics(tokenRequest: string, chargeRequest: string, chargeRejected: string, requestUpdateTxStatus: string)

  /** Fixed collaborators: the AES block cipher and the ECDH derivation, the server's private key
      in hex, the contract's event decoder (`UnpackIntoMap` over `FromHex(data)`), the card JSON
      decoder, SHA-256 of a string's bytes, and the processor's reply decoders. */
  datatype Env = Env(
    cipher: AesCbc.BlockCipher,
    ecdh: AesCbc.Ecdh,
    serverKeyHex: string,
    topics: Topics,
    decodeEvent: (string, string) -> Result<map<string, AbiValue>, string>,
    parseCard: seq<byte> -> Option<CardData>,
    sha256: string -> Bytes32,
    decodeReply: string -> Option<TxResponse>,
    decodeStatus: string -> Option<string>)

  /** What the outside world answers during one handler call: the fresh token id, the six random
      bytes of the processor transaction id, the clock, the processor's replies, the chain's replies
      to the handler's calls in the order they are made, and whether a store write succeeds. */
  datatype World = World(
    newTokenId: Bytes32,
    txRandom: seq<byte>,
    now: nat,
    chargeReply: HttpReply,
    pollReply: HttpReply,
    chain: seq<ChainReply>,
    writeOk: bool)

  predicate WellFormed(w: World) {
    |w.txRandom| == 6 && |w.chain| >= 2
  }

  /** Observable effects, in the order they happen. A `Call` is awaited; a `Spawn` runs in its own
      goroutine and its reply is ignored. */
  datatype Effect =
    | Call(call: ChainCall)
    | Spawn(call: ChainCall)
    | StorePut(key: string, value: seq<byte>)
    | ProcessorCharge(payload: Payload)
    | ProcessorPoll(txId: string)
    | CancelMonitor(txId: string, token: nat)
    | StartMonitor(watch: Monitor.Watch, token: nat)

  /** How a handler call ended: normally, by an early logged return, or by a runtime panic. */
  datatype End = Completed | Dropped(reason: string) | Panicked(message: string)

  datatype Step = Step(bridge: Bridge, effects: seq<Effect>, end: End)

  function Drop(b: Bridge, effects: seq<Effect>, reason: string): Step {
    Step(b, effects, Dropped(reason))
  }

  /** The store key of a card token: "token_" and the id in lower-case hex. */
  function TokenKey(tokenId: Bytes32): (key: string)
    ensures |key| == 70 && key[..6] == "token_"
    ensures forall i :: 6 <= i < 70 ==> IsLowerHex(key[i])
    ensures HexDecode(key[6..]) == Some(tokenId)
  {
    var key := "token_" + HexEncode(tokenId);
    assert key[6..] == HexEncode(tokenId);
    HexRoundTrip(tokenId);
    key
  }

  /** Distinct tokens never share a store entry, and no token entry overwrites the ingestion
      checkpoint. */
  lemma TokenKeyInjective(a: Bytes32, b: Bytes32)
    ensures TokenKey(a) == TokenKey(b) <==> a == b
    ensures TokenKey(a) != "lastBlock"
  {
    if TokenKey(a) == TokenKey(b) {
      assert HexEncode(a) == TokenKey(a)[6..] == TokenKey(b)[6..] == HexEncode(b);
      HexEncodeInjective(a, b);
    }
  }

  /** The stored blob's layout: the client's 65-byte uncompressed public key, the 16-byte IV, and
      the AES-CBC ciphertext. */
  datatype Blob = Blob(clientPublicKey: seq<byte>, iv: seq<byte>, ciphertext: seq<byte>)

  const MinBlobLength: nat := 81

  function SplitBlob(blob: seq<byte>): (p: Blob)
    requires |blob| >= MinBlobLength
    ensures |p.clientPublicKey| == 65 && |p.iv| == AesCbc.BlockSize
    ensures p.clientPublicKey + p.iv + p.ciphertext == blob
  {
    Blob(blob[..65], blob[65..81], blob[81..])
  }

  /** Decrypting a stored blob to a card: a blob shorter than 81 bytes panics on slicing, the
      cipher's panics stay panics, and every other failure is a logged early return. */
  function OpenCard(env: Env, privateKey: seq<byte>, blob: seq<byte>): (r: Result<CardData, End>)
    ensures |blob| < MinBlobLength ==> r.Failure? && r.error.Panicked?
    ensures r.Success? ==> |blob| >= MinBlobLength
    ensures r.Failure? ==> !r.error.Completed?
    ensures r.Success? ==>
              var p := SplitBlob(blob);
              var plain := AesCbc.DecryptAesCbc(env.cipher, env.ecdh, p.ciphertext, privateKey, p.clientPublicKey, p.iv);
              plain.Success? && env.parseCard(plain.value) == Some(r.value)
    ensures |blob| >= MinBlobLength ==>
              var p := SplitBlob(blob);
              var plain := AesCbc.DecryptAesCbc(env.cipher, env.ecdh, p.ciphertext, privateKey, p.clientPublicKey, p.iv);
              && (plain.Success? && env.parseCard(plain.value).Some? ==> r == Success(env.parseCard(plain.value).value))
              && (plain.Success? && env.parseCard(plain.value).None? ==> r == Failure(Dropped("parse card")))
              && (plain.Failure? ==> r.Failure? && (r.error.Panicked? <==> plain.error.Panic?))
  {
    if |blob| < MinBlobLength then Failure(Panicked("slice bounds out of range"))
    else
      var p := SplitBlob(blob);
      match AesCbc.DecryptAesCbc(env.cipher, env.ecdh, p.ciphertext, privateKey, p.clientPublicKey, p.iv)
      case Failure(e) => if e.Panic? then Failure(Panicked(e.message)) else Failure(Dropped("decrypt"))
      case Success(plain) =>
        match env.parseCard(plain)
        case None => Failure(Dropped("parse card"))
        case Some(card) => Success(card)
  }

  /** A blob laid out as the client writes it (its public key, the IV, and the AES-CBC encryption
      of the card's JSON under the ECDH key it shares with the server) opens to that card. */
  lemma BlobRoundTrip(env: Env, privateKey: seq<byte>, publicKey: seq<byte>, iv: seq<byte>, key: seq<byte>,
                      json: seq<byte>, card: CardData)
    requires AesCbc.Inverts(env.cipher)
    requires |publicKey| == 65 && |iv| == AesCbc.BlockSize
    requires env.ecdh(privateKey, publicKey) == Some(key) && AesCbc.ValidKeySize(key)
    requires env.parseCard(json) == Some(card)
    ensures AesCbc.EncryptAesCbc(env.cipher, key, json, iv).Success?
    ensures OpenCard(env, privateKey, publicKey + iv + AesCbc.EncryptAesCbc(env.cipher, key, json, iv).value) == Success(card)
  {
    AesCbc.EncryptDecryptRoundTrip(env.cipher, env.ecdh, key, json, privateKey, publicKey, iv);
    var ct := AesCbc.EncryptAesCbc(env.cipher, key, json, iv).value;
    var blob := publicKey + iv + ct;
    assert blob[..65] == publicKey && blob[65..81] == iv && blob[81..] == ct;
  }

  /** Typed reads of a decoded event or call result; a missing key fails like a wrong type. */
  function GetBytes(m: map<string, AbiValue>, key: string): Option<seq<byte>> {
    if key in m && m[key].ABytes? then Some(m[key].bytes) else None
  }

  function GetWord(m: map<string, AbiValue>, key: string): Option<Bytes32> {
    if key in m && m[key].ABytes32? then Some(m[key].word) else None
  }

  function GetAddress(m: map<string, AbiValue>, key: string): Option<Address> {
    if key in m && m[key].AAddress? then Some(m[key].address) else None
  }

  function GetString(m: map<string, AbiValue>, key: string): Option<string> {
    if key in m && m[key].AString? then Some(m[key].s) else None
  }

  function GetUint(m: map<string, AbiValue>, key: string): Option<nat> {
    if key in m && m[key].AUint? then Some(m[key].n) else None
  }

  function GetUint8(m: map<string, AbiValue>, key: string): Option<nat> {
    if key in m && m[key].AUint8? then Some(m[key].small) else None
  }

  /** The region every token is submitted with. */
  const Region: string := "VN"

  /** What `handleTokenRequest` takes from its event once every step before the chain call
      succeeded: the stored blob, the decrypted card, the requesting user and the request id. */
  datatype TokenRequest = TokenRequest(blob: seq<byte>, card: CardData, user: Address, requestId: Bytes32)

  /** The steps of `handleTokenRequest` before the chain call, in the order the Go code takes
      them: unpack, server key hex, blob, decrypt and parse, user, request id. */
  function DecodeTokenRequest(env: Env, data: string): (r: Result<TokenRequest, End>)
    ensures r.Failure? ==> !r.error.Completed?
    ensures r.Success? <==>
              var f := env.decodeEvent("TokenRequest", data);
              && f.Success? && HexDecode(env.serverKeyHex).Some? && GetBytes(f.value, "encryptedCardData").Some?
              && OpenCard(env, HexDecode(env.serverKeyHex).value, GetBytes(f.value, "encryptedCardData").value).Success?
              && GetAddress(f.value, "user").Some? && GetWord(f.value, "requestId").Some?
    ensures r.Success? ==>
              var f := env.decodeEvent("TokenRequest", data).value;
              && r.value.blob == GetBytes(f, "encryptedCardData").value
              && Success(r.value.card) == OpenCard(env, HexDecode(env.serverKeyHex).value, r.value.blob)
              && r.value.user == GetAddress(f, "user").value
              && r.value.requestId == GetWord(f, "requestId").value
  {
    match env.decodeEvent("TokenRequest", data)
    case Failure(_) => Failure(Dropped("unpack"))
    case Success(fields) =>
      match HexDecode(env.serverKeyHex)
      case None => Failure(Dropped("server key hex"))
      case Some(privateKey) =>
        match GetBytes(fields, "encryptedCardData")
        case None => Failure(Dropped("encryptedCardData"))
        case Some(blob) =>
          match OpenCard(env, privateKey, blob)
          case Failure(end) => Failure(end)
          case Success(card) =>
            match GetAddress(fields, "user")
            case None => Failure(Dropped("user"))
            case Some(user) =>
              match GetWord(fields, "requestId")
              case None => Failure(Dropped("requestId"))
              case Some(requestId) => Success(TokenRequest(blob, card, user, requestId))
  }

  /** `handleTokenRequest`: decrypt the card, submit a fresh token for it, and store the encrypted
      blob under the token's key. Any failure before the chain call has no effect at all; the store
      is written only after the submission succeeded and only when the database is open. */
  function HandleTokenRequest(b: Bridge, env: Env, data: string, w: World): (s: Step)
    requires WellFormed(w)
    ensures !s.end.Completed? ==> s.bridge == b
    ensures DecodeTokenRequest(env, data).Failure? ==> s == Step(b, [], DecodeTokenRequest(env, data).error)
    ensures DecodeTokenRequest(env, data).Success? ==>
              var req := DecodeTokenRequest(env, data).value;
              var card := req.card;
              && 1 <= |s.effects| <= 2
              && s.effects[0] == Call(SubmitTokenCall(req.user, w.newTokenId, Region, req.requestId,
                                                     env.sha256(card.cardNumber + card.expMonth + card.expYear)))
              && (|s.effects| == 2 <==> w.chain[0].Success? && b.dbOpen)
              && (|s.effects| == 2 ==> s.effects[1] == StorePut(TokenKey(w.newTokenId), req.blob))
              && (s.end.Completed? <==> w.chain[0].Success? && b.dbOpen && w.writeOk)
              && (s.end.Completed? ==> s.bridge == b.(store := b.store[TokenKey(w.newTokenId) := req.blob]))
    ensures s.end.Completed? ==> w.chain[0].Success? && b.dbOpen && w.writeOk
  {
    match DecodeTokenRequest(env, data)
    case Failure(end) => Step(b, [], end)
    case Success(req) =>
      var card := req.card;
      var cardHash := env.sha256(card.cardNumber + card.expMonth + card.expYear);
      var submit := Call(SubmitTokenCall(req.user, w.newTokenId, Region, req.requestId, cardHash));
      if w.chain[0].Failure? then Drop(b, [submit], "SubmitToken")
      else if !b.dbOpen then Drop(b, [submit], "database is nil")
      else
        var put := StorePut(TokenKey(w.newTokenId), req.blob);
        if !w.writeOk then Drop(b, [submit, put], "store write")
        else Step(b.(store := b.store[TokenKey(w.newTokenId) := req.blob]), [submit, put], Completed)
  }

  /** How `handleChargeRequest` reads the processor's answer: a "failed" status is final unless its
      message says the failure is pending; "success" is final; everything else, including the empty
      status of a failed exchange, is pending. */
  datatype Branch = Declined | Approved | Pending

  const PendingFailure: string := "Transaction failed, pending"

  function ChargeBranch(kq: TxResponse): (br: Branch)
    ensures br == Declined <==> kq.status == "failed" && !Contains(kq.message, PendingFailure)
    ensures br == Approved <==> kq.status == "success"
  {
    if kq.status == "failed" && !Contains(kq.message, PendingFailure) then Declined
    else if kq.status == "success" then Approved
    else Pending
  }

  /** The registry entry a pending charge creates: the monitor's old entry, if any, is cancelled
      and the new monitor starts with a fresh token. */
  function StartWatch(b: Bridge, watch: Monitor.Watch): (r: (Bridge, seq<Effect>))
    ensures var (token_registry, token) := Registry.Register(b.registry, watch.txId);
            r.0 == b.(registry := token_registry)
            && |r.1| >= 1 && r.1[|r.1| - 1] == StartMonitor(watch, token)
            && (watch.txId in b.registry.live <==> |r.1| == 2)
            && (|r.1| == 2 ==> r.1[0] == CancelMonitor(watch.txId, b.registry.live[watch.txId]))
  {
    var (registry, token) := Registry.Register(b.registry, watch.txId);
    var cancel := if watch.txId in b.registry.live then [CancelMonitor(watch.txId, b.registry.live[watch.txId])] else [];
    (b.(registry := registry), cancel + [StartMonitor(watch, token)])
  }

  /** The part of `handleChargeRequest` after the processor answered: record a decline, spawn the
      settlement of an approval, or mark the charge pending and start its monitor. Only the
      pending branch touches the registry, and only after its status write succeeded. */
  function SettleCharge(b: Bridge, sent: seq<Effect>, tokenId: Bytes32, amount: nat, merchant: Address,
                        kq: TxResponse, w: World): (s: Step)
    requires WellFormed(w)
    ensures s.bridge.store == b.store && s.bridge.dbOpen == b.dbOpen
    ensures |s.effects| > |sent| && s.effects[..|sent|] == sent
    ensures s.effects[|sent|] ==
              match ChargeBranch(kq)
              case Declined => Call(UpdateTxStatusCall(tokenId, kq.transactionId, 0, w.now, kq.message))
              case Approved => Spawn(UpdateTxStatusCall(tokenId, kq.transactionId, 2, w.now, "success"))
              case Pending => Call(UpdateTxStatusCall(tokenId, kq.transactionId, 1, w.now, "being processed"))
    ensures ChargeBranch(kq) == Approved ==>
              s == Step(b, sent + [s.effects[|sent|], Spawn(MintUtxoCall(amount, merchant, kq.transactionId))], Completed)
    ensures ChargeBranch(kq) == Declined ==> |s.effects| == |sent| + 1 && s.bridge == b
    ensures ChargeBranch(kq) == Pending && w.chain[0].Failure? ==> |s.effects| == |sent| + 1 && s.bridge == b
    ensures ChargeBranch(kq) == Pending && w.chain[0].Success? ==>
              var (b', started) := StartWatch(b, Monitor.Watch(tokenId, kq.transactionId, amount, merchant));
              s == Step(b', sent + [s.effects[|sent|]] + started, Completed)
    ensures s.end.Completed? <==> ChargeBranch(kq) == Approved || w.chain[0].Success?
    ensures Registry.Valid(b.registry) ==> Registry.Valid(s.bridge.registry)
    ensures s.bridge.registry != b.registry ==> s.end.Completed? && s.effects[|s.effects| - 1].StartMonitor?
  {
    match ChargeBranch(kq)
    case Declined =>
      var update := Call(UpdateTxStatusCall(tokenId, kq.transactionId, 0, w.now, kq.message));
      if w.chain[0].Failure? then Drop(b, sent + [update], "UpdateTxStatus") else Step(b, sent + [update], Completed)
    case Approved =>
      Step(b, sent + [Spawn(UpdateTxStatusCall(tokenId, kq.transactionId, 2, w.now, "success")),
                      Spawn(MintUtxoCall(amount, merchant, kq.transactionId))], Completed)
    case Pending =>
      var update := Call(UpdateTxStatusCall(tokenId, kq.transactionId, 1, w.now, "being processed"));
      if w.chain[0].Failure? then Drop(b, sent + [update], "UpdateTxStatus")
      else
        var (b', started) := StartWatch(b, Monitor.Watch(tokenId, kq.transactionId, amount, merchant));
        Step(b', sent + [update] + started, Completed)
  }

  /** The part of `handleChargeRequest` after the token's blob was found: decrypt the card, charge
      it through the processor, and act on the answer. The processor call's own error is not checked. */
  function ChargeStoredCard(b: Bridge, env: Env, fields: map<string, AbiValue>, tokenId: Bytes32, w: World): (s: Step)
    requires WellFormed(w) && b.dbOpen && TokenKey(tokenId) in b.store
    ensures s.bridge.store == b.store && s.bridge.dbOpen == b.dbOpen
    ensures Registry.Valid(b.registry) ==> Registry.Valid(s.bridge.registry)
    ensures s.bridge.registry != b.registry ==> s.end.Completed? && s.effects != [] && s.effects[|s.effects| - 1].StartMonitor?
    ensures s.effects != [] ==> GetUint(fields, "amount").Some? && GetAddress(fields, "merchant").Some?
    ensures var key := HexDecode(env.serverKeyHex);
            key.Some? && OpenCard(env, key.value, b.store[TokenKey(tokenId)]).Success?
            && GetUint(fields, "amount").Some? && GetAddress(fields, "merchant").Some?
            ==> s == ChargeCard(b, env, OpenCard(env, key.value, b.store[TokenKey(tokenId)]).value, tokenId,
                                GetUint(fields, "amount").value, GetAddress(fields, "merchant").value, w)
    ensures HexDecode(env.serverKeyHex).None? ==> s == Step(b, [], Dropped("server key hex"))
    ensures var key := HexDecode(env.serverKeyHex);
            key.Some? && OpenCard(env, key.value, b.store[TokenKey(tokenId)]).Failure?
            ==> s == Step(b, [], OpenCard(env, key.value, b.store[TokenKey(tokenId)]).error)
  {
    match HexDecode(env.serverKeyHex)
    case None => Drop(b, [], "server key hex")
    case Some(privateKey) =>
      match OpenCard(env, privateKey, b.store[TokenKey(tokenId)])
      case Failure(end) => Step(b, [], end)
      case Success(card) =>
        match GetUint(fields, "amount")
        case None => Drop(b, [], "amount")
        case Some(amount) =>
          match GetAddress(fields, "merchant")
          case None => Drop(b, [], "merchant")
          case Some(merchant) => ChargeCard(b, env, card, tokenId, amount, merchant, w)
  }

  /** Charging a decrypted card: the processor exchange, then the reaction to its response. The
      exchange's own error is not checked. */
  function ChargeCard(b: Bridge, env: Env, card: CardData, tokenId: Bytes32, amount: nat, merchant: Address, w: World): (s: Step)
    requires WellFormed(w)
    ensures s.bridge.store == b.store && s.bridge.dbOpen == b.dbOpen
    ensures Registry.Valid(b.registry) ==> Registry.Valid(s.bridge.registry)
    ensures s.bridge.registry != b.registry ==> s.end.Completed? && s.effects != [] && s.effects[|s.effects| - 1].StartMonitor?
    ensures s.effects != [] && (ValidateCard(card).None? <==> s.effects[0].ProcessorCharge?)
    ensures ValidateCard(card).None? ==> s.effects[0] == ProcessorCharge(BuildPayload(card, amount, merchant, w.txRandom))
  {
    var x := SendToThirdParty(card, amount, merchant, w.txRandom, w.chargeReply, env.decodeReply);
    var sent := if x.request.Some? then [ProcessorCharge(x.request.value)] else [];
    var s := SettleCharge(b, sent, tokenId, amount, merchant, x.response, w);
    assert s.effects[..|sent|] == sent;
    assert sent == [] ==> !s.effects[0].ProcessorCharge?;
    s
  }

  /** `handleChargeRequest`: read the event, look the token's blob up, and charge the stored card. */
  function HandleChargeRequest(b: Bridge, env: Env, data: string, w: World): (s: Step)
    requires WellFormed(w)
    ensures s.bridge.store == b.store && s.bridge.dbOpen == b.dbOpen
    ensures Registry.Valid(b.registry) ==> Registry.Valid(s.bridge.registry)
    ensures s.bridge.registry != b.registry ==> s.end.Completed? && s.effects != [] && s.effects[|s.effects| - 1].StartMonitor?
    ensures s.effects != [] ==>
              var f := env.decodeEvent("ChargeRequest", data);
              b.dbOpen && f.Success? && GetWord(f.value, "tokenId").Some? && TokenKey(GetWord(f.value, "tokenId").value) in b.store
    ensures var f := env.decodeEvent("ChargeRequest", data);
            b.dbOpen && f.Success? && GetWord(f.value, "tokenId").Some? && TokenKey(GetWord(f.value, "tokenId").value) in b.store
            ==> s == ChargeStoredCard(b, env, f.value, GetWord(f.value, "tokenId").value, w)
  {
    match env.decodeEvent("ChargeRequest", data)
    case Failure(_) => Drop(b, [], "unpack")
    case Success(fields) =>
      match GetWord(fields, "tokenId")
      case None => Drop(b, [], "tokenId")
      case Some(tokenId) =>
        if !b.dbOpen || TokenKey(tokenId) !in b.store then Drop(b, [], "read store")
        else ChargeStoredCard(b, env, fields, tokenId, w)
  }

  /** `handleRequestUpdateTxStatus`: stop the transaction's monitor, read the transaction back
      from the contract and, while it is still pending (status 1), poll the processor once and
      write its verdict. */
  function HandleRequestUpdateTxStatus(b: Bridge, env: Env, data: string, w: World): (s: Step)
    requires WellFormed(w)
    ensures s.bridge.store == b.store && s.bridge.dbOpen == b.dbOpen
    ensures Registry.Valid(b.registry) ==> Registry.Valid(s.bridge.registry)
    ensures s.bridge.registry != b.registry ==>
              s.effects != [] && s.effects[0].CancelMonitor?
              && s.bridge.registry == Registry.Remove(b.registry, s.effects[0].txId)
              && s.effects[0].txId !in s.bridge.registry.live
    ensures forall k :: 0 <= k < |s.effects| && s.effects[k].Call? && s.effects[k].call.UpdateTxStatusCall? ==>
              k >= 2 && s.effects[k - 1].ProcessorPoll? && s.effects[k - 2] == Call(GetTxCall(s.effects[k].call.txId))
              && w.chain[0].Success? && w.chain[0].value.Fields?
              && GetUint8(w.chain[0].value.fields, "status") == Some(1)
              && (s.effects[k].call.status == 2 <==> Monitor.ReportsSuccess(UpdateStatus(w.pollReply, env.decodeStatus)))
              && GetString(w.chain[0].value.fields, "reason").Some?
              && (s.effects[k].call.status != 2 ==>
                    s.effects[k].call.status == 1 && s.effects[k].call.reason == GetString(w.chain[0].value.fields, "reason").value)
    ensures var f := env.decodeEvent("RequestUpdateTxStatus", data);
            && f.Success? && GetString(f.value, "transactionID").Some? && GetWord(f.value, "tokenId").Some?
            && w.chain[0].Success? && w.chain[0].value.Fields?
            && GetUint8(w.chain[0].value.fields, "status").Some? && GetString(w.chain[0].value.fields, "reason").Some?
            ==>
              var txId := GetString(f.value, "transactionID").value;
              var tokenId := GetWord(f.value, "tokenId").value;
              var reason := GetString(w.chain[0].value.fields, "reason").value;
              var success := Monitor.ReportsSuccess(UpdateStatus(w.pollReply, env.decodeStatus));
              if GetUint8(w.chain[0].value.fields, "status") == Some(1) then
                && |s.effects| >= 3 && s.effects[|s.effects| - 2] == ProcessorPoll(txId)
                && s.effects[|s.effects| - 1] ==
                     Call(UpdateTxStatusCall(tokenId, txId, if success then 2 else 1, w.now, if success then "success" else reason))
                && (s.end.Completed? <==> w.chain[1].Success?)
              else
                s.end.Completed? && s.effects != [] && s.effects[|s.effects| - 1] == Call(GetTxCall(txId))
  {
    match env.decodeEvent("RequestUpdateTxStatus", data)
    case Failure(_) => Drop(b, [], "unpack")
    case Success(fields) =>
      match GetString(fields, "transactionID")
      case None => Drop(b, [], "transactionID")
      case Some(txId) =>
        match GetWord(fields, "tokenId")
        case None => Drop(b, [], "tokenId")
        case Some(tokenId) =>
          var cancel := if txId in b.registry.live then [CancelMonitor(txId, b.registry.live[txId])] else [];
          var b' := b.(registry := Registry.Remove(b.registry, txId));
          var read := cancel + [Call(GetTxCall(txId))];
          match w.chain[0]
          case Failure(_) => Drop(b', read, "GetTx")
          case Success(result) =>
            if !result.Fields? then Drop(b', read, "GetTx result is not a map")
            else RecheckStoredTx(b', read, env, tokenId, txId, result.fields, w)
  }

  /** The part of `handleRequestUpdateTxStatus` after the contract returned the transaction's
      fields: a transaction still at status 1 is polled once and its verdict written; any other
      status ends the handler with nothing more to do. */
  function RecheckStoredTx(b: Bridge, read: seq<Effect>, env: Env, tokenId: Bytes32, txId: string,
                           tx: map<string, AbiValue>, w: World): (s: Step)
    requires WellFormed(w)
    ensures s.bridge == b
    ensures GetUint8(tx, "status").None? || GetString(tx, "reason").None? ==> s.effects == read && s.end.Dropped?
    ensures GetUint8(tx, "status").Some? && GetString(tx, "reason").Some? && GetUint8(tx, "status") != Some(1)
            ==> s == Step(b, read, Completed)
    ensures GetUint8(tx, "status") == Some(1) && GetString(tx, "reason").Some? ==>
              var success := Monitor.ReportsSuccess(UpdateStatus(w.pollReply, env.decodeStatus));
              && s.effects == read + [ProcessorPoll(txId), Call(UpdateTxStatusCall(tokenId, txId, if success then 2 else 1, w.now,
                                                                                   if success then "success" else GetString(tx, "reason").value))]
              && (s.end.Completed? <==> w.chain[1].Success?)
  {
    match GetUint8(tx, "status")
    case None => Drop(b, read, "status")
    case Some(status) =>
      match GetString(tx, "reason")
      case None => Drop(b, read, "reason")
      case Some(reason) =>
        if status != 1 then Step(b, read, Completed)
        else
          var polled := read + [ProcessorPoll(txId)];
          var statusQuery := UpdateStatus(w.pollReply, env.decodeStatus);
          var update := if Monitor.ReportsSuccess(statusQuery)
                        then UpdateTxStatusCall(tokenId, txId, 2, w.now, "success")
                        else UpdateTxStatusCall(tokenId, txId, status, w.now, reason);
          if w.chain[1].Failure? then Drop(b, polled + [Call(update)], "UpdateTxStatus")
          else Step(b, polled + [Call(update)], Completed)
  }

  /** `handleChargeRejected`: the rejection is only logged. */
  function HandleChargeRejected(b: Bridge, env: Env, data: string): (s: Step)
    ensures s.bridge == b && s.effects == []
    ensures s.end.Completed? <==>
              var fields := env.decodeEvent("ChargeRejected", data);
              fields.Success? && GetAddress(fields.value, "user").Some? && GetWord(fields.value, "tokenId").Some?
              && GetString(fields.value, "reason").Some?
  {
    match env.decodeEvent("ChargeRejected", data)
    case Failure(_) => Drop(b, [], "unpack")
    case Success(fields) =>
      if GetAddress(fields, "user").None? then Drop(b, [], "user")
      else if GetWord(fields, "tokenId").None? then Drop(b, [], "tokenId")
      else if GetString(fields, "reason").None? then Drop(b, [], "reason")
      else Step(b, [], Completed)
  }

  /** `HandleConnectSmartContract`: route on the first topic, in the order the cases are listed; a
      log without topics panics on the index, an unknown topic is ignored. */
  function HandleEvent(b: Bridge, env: Env, ev: EventLog, w: World): (s: Step)
    requires WellFormed(w)
    ensures ev.topics == [] ==> s == Step(b, [], Panicked("index out of range"))
    ensures s.bridge.dbOpen == b.dbOpen
    ensures Registry.Valid(b.registry) ==> Registry.Valid(s.bridge.registry)
    ensures forall key :: key in b.store && key != TokenKey(w.newTokenId) ==> key in s.bridge.store && s.bridge.store[key] == b.store[key]
    ensures forall key :: key in s.bridge.store ==> key in b.store || key == TokenKey(w.newTokenId)
    ensures ev.topics != [] && ev.topics[0] !in {env.topics.tokenRequest, env.topics.chargeRequest,
                                                 env.topics.chargeRejected, env.topics.requestUpdateTxStatus}
            ==> s == Step(b, [], Completed)
    ensures ev.topics != [] && ev.topics[0] == env.topics.tokenRequest ==> s == HandleTokenRequest(b, env, ev.data, w)
    ensures ev.topics != [] && ev.topics[0] != env.topics.tokenRequest && ev.topics[0] == env.topics.chargeRequest
            ==> s == HandleChargeRequest(b, env, ev.data, w)
    ensures ev.topics != [] && ev.topics[0] !in {env.topics.tokenRequest, env.topics.chargeRequest}
            && ev.topics[0] == env.topics.chargeRejected
            ==> s == HandleChargeRejected(b, env, ev.data)
    ensures ev.topics != [] && ev.topics[0] !in {env.topics.tokenRequest, env.topics.chargeRequest, env.topics.chargeRejected}
            && ev.topics[0] == env.topics.requestUpdateTxStatus
            ==> s == HandleRequestUpdateTxStatus(b, env, ev.data, w)
  {
    if ev.topics == [] then Step(b, [], Panicked("index out of range"))
    else
      var topic := ev.topics[0];
      if topic == env.topics.tokenRequest then HandleTokenRequest(b, env, ev.data, w)
      else if topic == env.topics.chargeRequest then HandleChargeRequest(b, env, ev.data, w)
      else if topic == env.topics.chargeRejected then HandleChargeRejected(b, env, ev.data)
      else if topic == env.topics.requestUpdateTxStatus then HandleRequestUpdateTxStatus(b, env, ev.data, w)
      else Step(b, [], Completed)
  }

  /** A card tokenized by a completed token request can be charged: a later charge request for
      that token decrypts the same card from the stored blob and, when the card is valid, sends the
      processor a charge built from it. */
  lemma TokenThenCharge(b: Bridge, env: Env, tokenData: string, w1: World, chargeData: string, w2: World)
    requires WellFormed(w1) && WellFormed(w2)
    requires HandleTokenRequest(b, env, tokenData, w1).end.Completed?
    requires var f := env.decodeEvent("ChargeRequest", chargeData);
             && f.Success? && GetWord(f.value, "tokenId") == Some(w1.newTokenId)
             && GetUint(f.value, "amount").Some? && GetAddress(f.value, "merchant").Some?
    ensures var blob := GetBytes(env.decodeEvent("TokenRequest", tokenData).value, "encryptedCardData").value;
            var card := OpenCard(env, HexDecode(env.serverKeyHex).value, blob).value;
            var f := env.decodeEvent("ChargeRequest", chargeData).value;
            var s2 := HandleChargeRequest(HandleTokenRequest(b, env, tokenData, w1).bridge, env, chargeData, w2);
            ValidateCard(card).None? ==>
              s2.effects[0] == ProcessorCharge(BuildPayload(card, GetUint(f, "amount").value, GetAddress(f, "merchant").value, w2.txRandom))
  {
  }

  /** The processor exchange's error is never checked: an invalid card, or a processor that cannot
      be reached, leaves the zero response, whose empty status reads as pending. */
  lemma ExchangeErrorReadsAsPending(card: CardData, amount: nat, merchant: Address, random: seq<byte>,
                                    reply: HttpReply, decode: string -> Option<TxResponse>)
    requires |random| == 6
    requires ValidateCard(card).Some? || reply.HttpFailed?
    ensures var x := SendToThirdParty(card, amount, merchant, random, reply, decode);
            x.error.Some? && ChargeBranch(x.response) == Pending && x.response.transactionId == ""
  {
  }

  /** A charge whose exchange failed (an invalid card, or a processor that cannot be reached)
      settles the zero response: the charge is marked "being processed" under the empty
      transaction id and, once that write succeeded, a monitor is started for it. Only a valid
      card reached the processor first. */
  lemma ExchangeErrorChargesPending(b: Bridge, env: Env, card: CardData, tokenId: Bytes32, amount: nat,
                                    merchant: Address, w: World)
    requires WellFormed(w)
    requires ValidateCard(card).Some? || w.chargeReply.HttpFailed?
    ensures var sent := if ValidateCard(card).None? then [ProcessorCharge(BuildPayload(card, amount, merchant, w.txRandom))] else [];
            var s := ChargeCard(b, env, card, tokenId, amount, merchant, w);
            && s == SettleCharge(b, sent, tokenId, amount, merchant, ZeroResponse, w)
            && s.effects[..|sent|] == sent
            && s.effects[|sent|] == Call(UpdateTxStatusCall(tokenId, "", 1, w.now, "being processed"))
            && (s.end.Completed? <==> w.chain[0].Success?)
            && (w.chain[0].Success? ==>
                  "" in s.bridge.registry.live
                  && s.effects[|s.effects| - 1] == StartMonitor(Monitor.Watch(tokenId, "", amount, merchant),
                                                             s.bridge.registry.live[""]))
  {
    var x := SendToThirdParty(card, amount, merchant, w.txRandom, w.chargeReply, env.decodeReply);
    assert x.response == ZeroResponse && ChargeBranch(ZeroResponse) == Pending && ZeroResponse.transactionId == "" by {
      ExchangeErrorReadsAsPending(card, amount, merchant, w.txRandom, w.chargeReply, env.decodeReply);
    }
  }

  /** How the processor's reply body steers the charge: the success marker approves it, the
      processing marker leaves it pending, and a body that is neither a marker reply nor JSON is
      declined unless it itself mentions a pending failure. */
  lemma ReplyBodyBranches(card: CardData, amount: nat, merchant: Address, random: seq<byte>,
                          body: string, decode: string -> Option<TxResponse>)
    requires |random| == 6 && ValidateCard(card).None?
    ensures var kq := SendToThirdParty(card, amount, merchant, random, HttpBody(body), decode).response;
            && (Contains(body, SuccessMarker) ==> ChargeBranch(kq) == Approved)
            && (!Contains(body, SuccessMarker) && Contains(body, ProcessingMarker) ==> ChargeBranch(kq) == Pending)
            && (!Contains(body, SuccessMarker) && !Contains(body, ProcessingMarker) && decode(body).None?
                ==> (ChargeBranch(kq) == Declined <==> !Contains(body, PendingFailure)))
  {
  }

  /** The processor's reply followed end to end through a charge of a valid card. The success
      marker spawns the status-2 write and the mint under the generated transaction id. */
  lemma SuccessReplySettles(b: Bridge, env: Env, card: CardData, tokenId: Bytes32, amount: nat, merchant: Address,
                            w: World, body: string)
    requires WellFormed(w) && ValidateCard(card).None? && w.chargeReply == HttpBody(body)
    requires Contains(body, SuccessMarker)
    ensures var p := BuildPayload(card, amount, merchant, w.txRandom);
            ChargeCard(b, env, card, tokenId, amount, merchant, w)
              == Step(b, [ProcessorCharge(p), Spawn(UpdateTxStatusCall(tokenId, p.txId, 2, w.now, "success")),
                          Spawn(MintUtxoCall(amount, merchant, p.txId))], Completed)
  {
    var p := ChargedResponse(env, card, amount, merchant, w, body);
    var kq := ClassifyReply(body, p.txId, env.decodeReply);
    assert ChargeBranch(kq) == Approved && kq.transactionId == p.txId by {
      assert kq == TxResponse(body, "success", p.txId);
    }
    assert ChargeCard(b, env, card, tokenId, amount, merchant, w)
           == SettleCharge(b, [ProcessorCharge(p)], tokenId, amount, merchant, kq, w);
  }

  /** The processing marker writes status 1 with the reason "being processed" and, once that
      write succeeded, starts a monitor for the generated transaction id. */
  lemma ProcessingReplyStartsMonitor(b: Bridge, env: Env, card: CardData, tokenId: Bytes32, amount: nat, merchant: Address,
                                     w: World, body: string)
    requires WellFormed(w) && ValidateCard(card).None? && w.chargeReply == HttpBody(body)
    requires !Contains(body, SuccessMarker) && Contains(body, ProcessingMarker)
    ensures var p := BuildPayload(card, amount, merchant, w.txRandom);
            var s := ChargeCard(b, env, card, tokenId, amount, merchant, w);
            && |s.effects| >= 2 && s.effects[0] == ProcessorCharge(p)
            && s.effects[1] == Call(UpdateTxStatusCall(tokenId, p.txId, 1, w.now, "being processed"))
            && (s.end.Completed? <==> w.chain[0].Success?)
            && (w.chain[0].Success? ==>
                  p.txId in s.bridge.registry.live
                  && s.effects[|s.effects| - 1] == StartMonitor(Monitor.Watch(tokenId, p.txId, amount, merchant),
                                                             s.bridge.registry.live[p.txId]))
  {
    var p := ChargedResponse(env, card, amount, merchant, w, body);
    var kq := ClassifyReply(body, p.txId, env.decodeReply);
    assert ChargeBranch(kq) == Pending && kq.transactionId == p.txId by {
      assert kq == TxResponse(body, "being processed", p.txId);
    }
    assert ChargeCard(b, env, card, tokenId, amount, merchant, w)
           == SettleCharge(b, [ProcessorCharge(p)], tokenId, amount, merchant, kq, w);
  }

  /** A body that is neither a marker reply nor JSON, and does not itself mention a pending
      failure, declines the charge: status 0 is written with the body as the reason. */
  lemma UnreadableReplyDeclines(b: Bridge, env: Env, card: CardData, tokenId: Bytes32, amount: nat, merchant: Address,
                                w: World, body: string)
    requires WellFormed(w) && ValidateCard(card).None? && w.chargeReply == HttpBody(body)
    requires !Contains(body, SuccessMarker) && !Contains(body, ProcessingMarker)
    requires env.decodeReply(body).None? && !Contains(body, PendingFailure)
    ensures var p := BuildPayload(card, amount, merchant, w.txRandom);
            var s := ChargeCard(b, env, card, tokenId, amount, merchant, w);
            && s.effects == [ProcessorCharge(p), Call(UpdateTxStatusCall(tokenId, p.txId, 0, w.now, body))]
            && s.bridge == b && (s.end.Completed? <==> w.chain[0].Success?)
  {
    var p := ChargedResponse(env, card, amount, merchant, w, body);
    var kq := ClassifyReply(body, p.txId, env.decodeReply);
    assert ChargeBranch(kq) == Declined && kq.transactionId == p.txId && kq.message == body by {
      assert kq == TxResponse(body, "failed", p.txId);
    }
    assert ChargeCard(b, env, card, tokenId, amount, merchant, w)
           == SettleCharge(b, [ProcessorCharge(p)], tokenId, amount, merchant, kq, w);
    DeclinedSettles(b, [ProcessorCharge(p)], tokenId, amount, merchant, kq, w);
    assert [ProcessorCharge(p)] + [Call(UpdateTxStatusCall(tokenId, p.txId, 0, w.now, body))]
           == [ProcessorCharge(p), Call(UpdateTxStatusCall(tokenId, p.txId, 0, w.now, body))];
  }

  /** A declined charge writes status 0 with the processor's message and nothing else; the
      handler completes exactly when that write succeeded. */
  lemma DeclinedSettles(b: Bridge, sent: seq<Effect>, tokenId: Bytes32, amount: nat, merchant: Address,
                        kq: TxResponse, w: World)
    requires WellFormed(w) && ChargeBranch(kq) == Declined
    ensures SettleCharge(b, sent, tokenId, amount, merchant, kq, w)
            == Step(b, sent + [Call(UpdateTxStatusCall(tokenId, kq.transactionId, 0, w.now, kq.message))],
                    if w.chain[0].Success? then Completed else Dropped("UpdateTxStatus"))
  {
  }

  /** A valid card's charge with a reply body: the request is the built payload, the response is
      the body's classification under that payload's transaction id, and the rest is `SettleCharge`. */
  lemma ChargedResponse(env: Env, card: CardData, amount: nat, merchant: Address, w: World, body: string)
    returns (p: Payload)
    requires WellFormed(w) && ValidateCard(card).None? && w.chargeReply == HttpBody(body)
    ensures p == BuildPayload(card, amount, merchant, w.txRandom)
    ensures var x := SendToThirdParty(card, amount, merchant, w.txRandom, w.chargeReply, env.decodeReply);
            x.request == Some(p) && x.response == ClassifyReply(body, p.txId, env.decodeReply)
    ensures forall b: Bridge, tokenId: Bytes32 ::
              ChargeCard(b, env, card, tokenId, amount, merchant, w)
                == SettleCharge(b, [ProcessorCharge(p)], tokenId, amount, merchant,
                                ClassifyReply(body, p.txId, env.decodeReply), w)
  {
    p := BuildPayload(card, amount, merchant, w.txRandom);
  }

  /** A status request for a transaction with a running monitor cancels that monitor, whatever
      the contract then answers. */
  lemma StatusRequestStopsMonitor(b: Bridge, env: Env, data: string, w: World, txId: string)
    requires WellFormed(w)
    requires var f := env.decodeEvent("RequestUpdateTxStatus", data);
             f.Success? && GetString(f.value, "transactionID") == Some(txId) && GetWord(f.value, "tokenId").Some?
    requires txId in b.registry.live
    ensures var s := HandleRequestUpdateTxStatus(b, env, data, w);
            && s.effects[0] == CancelMonitor(txId, b.registry.live[txId])
            && b.registry.live[txId] in s.bridge.registry.cancelled
            && txId !in s.bridge.registry.live
  {
  }

  /** A pending charge for a transaction that already has a monitor replaces it: the old monitor
      is cancelled before the new one starts. */
  lemma PendingChargeSupersedesMonitor(b: Bridge, sent: seq<Effect>, tokenId: Bytes32, amount: nat, merchant: Address,
                                       kq: TxResponse, w: World)
    requires WellFormed(w) && ChargeBranch(kq) == Pending && w.chain[0].Success?
    requires Registry.Valid(b.registry) && kq.transactionId in b.registry.live
    ensures var s := SettleCharge(b, sent, tokenId, amount, merchant, kq, w);
            && b.registry.live[kq.transactionId] in s.bridge.registry.cancelled
            && s.bridge.registry.live[kq.transactionId] != b.registry.live[kq.transactionId]
            && s.effects[|sent| + 1] == CancelMonitor(kq.transactionId, b.registry.live[kq.transactionId])
            && s.effects[|sent| + 2].StartMonitor?
  {
  }
}

=== FILE: gateway.dfy ===
/** The transaction gateway: every contract call goes through one retry loop that submits the call,
    waits a bounded time for a receipt, and turns the receipt into a result. The chain client, its
    clock and the ABI decoder are inputs: one `AttemptOutcome` per submission, and `unpack`. */
module Gateway {
  import opened Wrappers
  import opened Bytes

  /** A decoded ABI value, as far as the handlers look into one. */
  datatype AbiValue =
    | AUint8(small: nat)
    | AUint(n: nat)
    | AString(s: string)
    | ABytes(bytes: seq<byte>)
    | ABytes32(word: Bytes32)
    | AAddress(address: Address)
    | ABool(flag: bool)

  /** Whether the receipt reports `RECEIPT_STATUS_RETURNED` or some other status code. */
  datatype ReceiptStatus = Returned | NotReturned(code: int)

  /** What one submission gives within the wait: the client's error, no answer, or a receipt. */
  datatype AttemptOutcome =
    | SendFailed(reason: string)
    | TimedOut
    | Receipt(status: ReceiptStatus, returned: seq<byte>)

  /** The dynamic result of a call: `true` for a write, the unpacked output map, or the hex of the
      return data of a receipt that was not "returned". */
  datatype CallResult = Accepted | Fields(fields: map<string, AbiValue>) | ReturnHex(hex: string)

  datatype GatewayError =
    | SendError(reason: string)
    | UnpackError(reason: string)
    | Timeout(attempts: int, methodName: string)
    | Unexpected(methodName: string)

  /** What a handler sees of one contract call. */
  type ChainReply = Result<CallResult, GatewayError>

  /** `cardAbi.UnpackIntoMap(kq, name, data)`: decodes a method's outputs or fails. */
  type Unpacker = (string, seq<byte>) -> Result<map<string, AbiValue>, string>

  /** The contract methods the bridge calls. */
  datatype ContractMethod = SubmitToken | UpdateTxStatus | GetTx | GetBackendPubKey | GetPoolInfo | MintUtxo

  function MethodName(m: ContractMethod): string {
    match m
    case SubmitToken => "submitToken"
    case UpdateTxStatus => "UpdateTxStatus"
    case GetTx => "getTx"
    case GetBackendPubKey => "getBackendPubKey"
    case GetPoolInfo => "getPoolInfo"
    case MintUtxo => "MintUTXO"
  }

  /** The two writes that only need acknowledging are not unpacked; every other method unpacks
      into its own outputs. */
  function UnpackTarget(m: ContractMethod): string {
    match m
    case SubmitToken => ""
    case UpdateTxStatus => ""
    case _ => MethodName(m)
  }

  /** One contract call with its arguments, as the handlers issue it. */
  datatype ChainCall =
    | SubmitTokenCall(user: Address, tokenId: Bytes32, region: string, requestId: Bytes32, cardHash: Bytes32)
    | UpdateTxStatusCall(tokenId: Bytes32, txId: string, status: nat, atTime: nat, reason: string)
    | GetTxCall(txId: string)
    | MintUtxoCall(parentValue: nat, ownerPool: Address, txId: string)
    | GetPoolInfoCall(txId: string)

  function MethodOf(call: ChainCall): ContractMethod {
    match call
    case SubmitTokenCall(_, _, _, _, _) => SubmitToken
    case UpdateTxStatusCall(_, _, _, _, _) => UpdateTxStatus
    case GetTxCall(_) => GetTx
    case MintUtxoCall(_, _, _) => MintUtxo
    case GetPoolInfoCall(_) => GetPoolInfo
  }

  /** The attempt budget: token submission gets three tries, every other call one. */
  function Attempts(m: ContractMethod): nat {
    if m == SubmitToken then 3 else 1
  }

  /** The reply for a receipt: a returned receipt is acknowledged or unpacked, any other receipt
      yields its return data in hex. */
  function FromReceipt(unpackTo: string, status: ReceiptStatus, returned: seq<byte>, unpack: Unpacker): (r: ChainReply)
    ensures status.NotReturned? ==> r == Success(ReturnHex(HexEncode(returned)))
    ensures r.Success? && r.value.Accepted? <==> status.Returned? && unpackTo == ""
    ensures r.Success? && r.value.Fields? <==> status.Returned? && unpackTo != "" && unpack(unpackTo, returned).Success?
    ensures r.Failure? <==> status.Returned? && unpackTo != "" && unpack(unpackTo, returned).Failure?
    ensures r.Success? && r.value.Fields? ==> r.value.fields == unpack(unpackTo, returned).value
  {
    match status
    case NotReturned(_) => Success(ReturnHex(HexEncode(returned)))
    case Returned =>
      if unpackTo == "" then Success(Accepted)
      else match unpack(unpackTo, returned)
        case Success(fields) => Success(Fields(fields))
        case Failure(e) => Failure(UnpackError(e))
  }

  /** The revert data of a failed receipt survives its hex form: decoding gives the bytes back. */
  lemma ReturnHexRecoversData(unpackTo: string, status: ReceiptStatus, returned: seq<byte>, unpack: Unpacker)
    requires status.NotReturned?
    ensures var r := FromReceipt(unpackTo, status, returned, unpack);
            r.Success? && r.value.ReturnHex? && HexDecode(r.value.hex) == Some(returned)
  {
    HexRoundTrip(returned);
  }

  /** An outcome that ends the loop: anything but a timeout. */
  predicate Settles(o: AttemptOutcome) {
    !o.TimedOut?
  }

  /** `sendTransactionAndGetResult`: up to `attempts` submissions; only a timeout leads to another
      one, and the last timeout ends the loop with a timeout error. A non-positive budget never
      enters the loop. `trace[k]` is what submission `k + 1` gives. */
  method SendTransactionAndGetResult(methodName: string, unpackTo: string, attempts: int,
                                     trace: seq<AttemptOutcome>, unpack: Unpacker)
    returns (r: ChainReply, submissions: nat)
    requires attempts <= |trace|
    ensures attempts <= 0 ==> submissions == 0 && r == Failure(Unexpected(methodName))
    ensures attempts > 0 ==> 1 <= submissions <= attempts
    ensures forall k :: 0 <= k < submissions - 1 ==> trace[k].TimedOut?
    ensures submissions > 0 && trace[submissions - 1].TimedOut? ==>
              submissions == attempts && r == Failure(Timeout(attempts, methodName))
    ensures submissions > 0 && trace[submissions - 1].SendFailed? ==>
              r == Failure(SendError(trace[submissions - 1].reason))
    ensures submissions > 0 && trace[submissions - 1].Receipt? ==>
              r == FromReceipt(unpackTo, trace[submissions - 1].status, trace[submissions - 1].returned, unpack)
  {
    var attempt := 1;
    while attempt <= attempts
      invariant 1 <= attempt
      invariant attempts >= 1 ==> attempt <= attempts
      invariant attempt - 1 <= |trace|
      invariant forall k :: 0 <= k < attempt - 1 ==> trace[k].TimedOut?
      decreases attempts - attempt
    {
      match trace[attempt - 1]
      case SendFailed(reason) =>
        return Failure(SendError(reason)), attempt;
      case Receipt(status, returned) =>
        return FromReceipt(unpackTo, status, returned, unpack), attempt;
      case TimedOut =>
        if attempt < attempts {
          attempt := attempt + 1;
        } else {
          return Failure(Timeout(attempts, methodName)), attempt;
        }
    }
    return Failure(Unexpected(methodName)), 0;
  }

  /** The index of the first submission that settles within a budget of `n`, if any. */
  function FirstSettled(trace: seq<AttemptOutcome>, n: nat): (k: Option<nat>)
    requires n <= |trace|
    ensures k.Some? ==> k.value < n && Settles(trace[k.value])
    ensures k.Some? ==> forall j :: 0 <= j < k.value ==> !Settles(trace[j])
    ensures k.None? ==> forall j :: 0 <= j < n ==> !Settles(trace[j])
  {
    if n == 0 then None
    else match FirstSettled(trace, n - 1)
      case Some(k) => Some(k)
      case None => if Settles(trace[n - 1]) then Some(n - 1) else None
  }

  /** The loop's result as a declarative reference: the first settling outcome decides, and a
      budget spent on timeouts is a timeout. */
  function Outcome(methodName: string, unpackTo: string, attempts: int,
                   trace: seq<AttemptOutcome>, unpack: Unpacker): (r: ChainReply)
    requires attempts <= |trace|
  {
    if attempts <= 0 then Failure(Unexpected(methodName))
    else match FirstSettled(trace, attempts)
      case None => Failure(Timeout(attempts, methodName))
      case Some(k) =>
        match trace[k]
        case SendFailed(reason) => Failure(SendError(reason))
        case Receipt(status, returned) => FromReceipt(unpackTo, status, returned, unpack)
        case TimedOut => Failure(Unexpected(methodName))
  }

  /** The retry loop computes the declarative outcome, and submits once per timeout before the
      settling attempt, plus that attempt. */
  method SendAgreesWithOutcome(methodName: string, unpackTo: string, attempts: int,
                               trace: seq<AttemptOutcome>, unpack: Unpacker)
    returns (r: ChainReply, submissions: nat)
    requires attempts <= |trace|
    ensures r == Outcome(methodName, unpackTo, attempts, trace, unpack)
    ensures attempts > 0 && FirstSettled(trace, attempts).Some? ==> submissions == FirstSettled(trace, attempts).value + 1
    ensures attempts > 0 && FirstSettled(trace, attempts).None? ==> submissions == attempts
  {
    r, submissions := SendTransactionAndGetResult(methodName, unpackTo, attempts, trace, unpack);
    if attempts > 0 {
      if Settles(trace[submissions - 1]) {
        FirstSettledAt(trace, attempts, submissions - 1);
      } else {
        NoneSettled(trace, attempts);
      }
    }
  }

  /** A settling outcome after nothing but timeouts is the first to settle. */
  lemma FirstSettledAt(trace: seq<AttemptOutcome>, n: nat, k: nat)
    requires k < n <= |trace|
    requires Settles(trace[k]) && forall j :: 0 <= j < k ==> trace[j].TimedOut?
    ensures FirstSettled(trace, n) == Some(k)
  {
  }

  lemma NoneSettled(trace: seq<AttemptOutcome>, n: nat)
    requires n <= |trace|
    requires forall j :: 0 <= j < n ==> trace[j].TimedOut?
    ensures FirstSettled(trace, n) == None
  {
  }

  /** A typed call of one contract method, with that method's budget and unpack target. */
  method Call(m: ContractMethod, trace: seq<AttemptOutcome>, unpack: Unpacker) returns (r: ChainReply, submissions: nat)
    requires Attempts(m) <= |trace|
    ensures 1 <= submissions <= Attempts(m)
    ensures m != SubmitToken ==> submissions == 1
    ensures r == Failure(Timeout(Attempts(m), MethodName(m))) <==> forall k :: 0 <= k < Attempts(m) ==> trace[k].TimedOut?
    ensures r.Success? && r.value.Accepted? ==> m == SubmitToken || m == UpdateTxStatus
    ensures r.Success? && r.value.Fields? ==> m != SubmitToken && m != UpdateTxStatus
    ensures r == Outcome(MethodName(m), UnpackTarget(m), Attempts(m), trace, unpack)
  {
    r, submissions := SendAgreesWithOutcome(MethodName(m), UnpackTarget(m), Attempts(m), trace, unpack);
    if forall k :: 0 <= k < Attempts(m) ==> trace[k].TimedOut? {
      NoneSettled(trace, Attempts(m));
    }
  }

  /** What `CallVerifyPublicKey` hands back: the unnamed output of `getBackendPubKey`, nothing when
      the map lacks it, or the call's result unchanged when it is not a map. */
  datatype PublicKeyValue = Missing | Value(value: AbiValue) | Passthrough(result: CallResult)

  function CallVerifyPublicKey(reply: ChainReply): (r: Result<PublicKeyValue, GatewayError>)
    ensures reply.Failure? <==> r.Failure?
    ensures reply.Failure? ==> r.error == reply.error
    ensures r.Success? && r.value.Value? <==> reply.Success? && reply.value.Fields? && "" in reply.value.fields
    ensures r.Success? && r.value.Value? ==> r.value.value == reply.value.fields[""]
    ensures r.Success? && r.value.Passthrough? ==> r.value.result == reply.value && !reply.value.Fields?
    ensures reply.Success? && !reply.value.Fields? ==> r == Success(Passthrough(reply.value))
    ensures reply.Success? && reply.value.Fields? && "" !in reply.value.fields ==> r == Success(Missing)
  {
    match reply
    case Failure(e) => Failure(e)
    case Success(Fields(fields)) => if "" in fields then Success(Value(fields[""])) else Success(Missing)
    case Success(other) => Success(Passthrough(other))
  }
}

=== FILE: ingest.dfy ===
/** `ListenEvents`: the block-range scan that feeds contract events to the handlers. The listener
    keeps the last scanned block as a decimal checkpoint under "lastBlock"; each cycle reads the
    chain head, fetches the logs of every watched topic in the new range, and advances. RPC
    answers, log decoding and the outcome of store writes are inputs. */
module Ingest {
  import opened Wrappers
  import opened Bytes
  import opened Strconv
  import Dispatcher

  const CheckpointKey: string := "lastBlock"

  /** The listener's state: the key-value store it shares with the handlers, and the last block
      it has scanned. */
  datatype Listener = Listener(store: map<string, seq<byte>>, from: nat)

  /** The stored form of a block number: its decimal digits as bytes. */
  function CheckpointBytes(n: nat): (bs: seq<byte>)
    ensures |bs| >= 1
  {
    var s := Decimal(n);
    assert IsByteString(s) by {
      forall i | 0 <= i < |s|
        ensures s[i] as int < 256
      {
        assert IsLowerHex(s[i]);
      }
    }
    StringToBytes(s)
  }

  /** The block number a stored checkpoint denotes: `ParseUint(string(bytes), 0, 64)` with the
      error ignored. */
  function CheckpointValue(bs: seq<byte>): (n: nat)
    ensures n <= MaxUint64
  {
    ParseUintIgnoringError(BytesToString(bs))
  }

  /** Writing a checkpoint and reading it back gives the block number. */
  lemma CheckpointRoundTrip(n: nat)
    requires n <= MaxUint64
    ensures CheckpointValue(CheckpointBytes(n)) == n
  {
    var s := Decimal(n);
    assert IsByteString(s) by {
      forall i | 0 <= i < |s|
        ensures s[i] as int < 256
      {
        assert IsLowerHex(s[i]);
      }
    }
    StringBytesRoundTrip(s);
    DecimalRoundTrip(n);
  }

  /** The listener's start: without a database it never listens. A missing or empty checkpoint
      is seeded from the chain head (an RPC failure ends the listener), and the seed is written
      back when the write succeeds; otherwise the stored checkpoint is parsed. */
  function Start(store: map<string, seq<byte>>, dbOpen: bool, head: Result<string, string>, writeOk: bool): (r: Option<Listener>)
    ensures !dbOpen ==> r.None?
    ensures r.Some? ==> r.value.from <= MaxUint64
    ensures dbOpen && CheckpointKey in store && store[CheckpointKey] != [] ==>
              r == Some(Listener(store, CheckpointValue(store[CheckpointKey])))
    ensures r.None? ==> !dbOpen || head.Failure?
    ensures dbOpen && (CheckpointKey !in store || store[CheckpointKey] == []) && head.Failure? ==> r.None?
    ensures r.Some? && r.value.store != store ==>
              r.value.store == store[CheckpointKey := CheckpointBytes(r.value.from)] && writeOk
    ensures dbOpen && (CheckpointKey !in store || store[CheckpointKey] == []) && head.Success? ==>
              && r.Some? && r.value.from == ParseUintIgnoringError(head.value)
              && r.value.store == (if writeOk then store[CheckpointKey := CheckpointBytes(r.value.from)] else store)
  {
    if !dbOpen then None
    else if CheckpointKey !in store || store[CheckpointKey] == [] then
      match head
      case Failure(_) => None
      case Success(latest) =>
        var from := ParseUintIgnoringError(latest);
        Some(Listener(if writeOk then store[CheckpointKey := CheckpointBytes(from)] else store, from))
    else Some(Listener(store, CheckpointValue(store[CheckpointKey])))
  }

  /** One `eth_getLogs` request: the `0x`-quantity bounds and the topic. */
  datatype Query = Query(fromBlock: string, toBlock: string, topic: string)

  /** What the outside world answers in one cycle: the head, one fetch result per topic (raw JSON
      log entries or an error), and whether the checkpoint write succeeds. */
  datatype CycleInput = CycleInput(head: Result<string, string>, fetched: seq<Result<seq<string>, string>>, writeOk: bool)

  /** The events a cycle forwards: every entry of every successful fetch that decodes, in topic
      order; a failed fetch and an undecodable entry are skipped. */
  function Collect(fetched: seq<Result<seq<string>, string>>, decodeLog: string -> Option<Dispatcher.EventLog>): (events: seq<Dispatcher.EventLog>)
    ensures |events| <= TotalEntries(fetched)
    ensures |fetched| == 1 && fetched[0].Failure? ==> events == []
    ensures |fetched| == 1 && fetched[0].Success? ==> events == Decoded(fetched[0].value, decodeLog)
  {
    if fetched == [] then []
    else
      var here := match fetched[0]
        case Failure(_) => []
        case Success(entries) => Decoded(entries, decodeLog);
      here + Collect(fetched[1..], decodeLog)
  }

  function TotalEntries(fetched: seq<Result<seq<string>, string>>): nat {
    if fetched == [] then 0
    else (if fetched[0].Success? then |fetched[0].value| else 0) + TotalEntries(fetched[1..])
  }

  /** The entries of one fetch that decode, in order. */
  function Decoded(entries: seq<string>, decodeLog: string -> Option<Dispatcher.EventLog>): (events: seq<Dispatcher.EventLog>)
    ensures |events| <= |entries|
    ensures forall e :: e in events ==> exists raw :: raw in entries && decodeLog(raw) == Some(e)
    ensures (forall raw :: raw in entries ==> decodeLog(raw).Some?) ==> |events| == |entries|
    ensures |entries| == 1 ==> events == (if decodeLog(entries[0]).Some? then [decodeLog(entries[0]).value] else [])
  {
    if entries == [] then []
    else
      var rest := Decoded(entries[1..], decodeLog);
      assert forall raw :: raw in entries[1..] ==> raw in entries;
      match decodeLog(entries[0])
      case None => rest
      case Some(e) => [e] + rest
  }

  /** When every entry decodes, nothing is dropped and each event sits at its entry's position. */
  lemma {:induction false} DecodedAll(entries: seq<string>, decodeLog: string -> Option<Dispatcher.EventLog>)
    requires forall raw :: raw in entries ==> decodeLog(raw).Some?
    ensures var events := Decoded(entries, decodeLog);
            |events| == |entries| && forall i :: 0 <= i < |entries| ==> decodeLog(entries[i]) == Some(events[i])
    decreases |entries|
  {
    if entries != [] {
      assert forall raw :: raw in entries[1..] ==> raw in entries;
      DecodedAll(entries[1..], decodeLog);
      var events := Decoded(entries, decodeLog);
      assert events == [decodeLog(entries[0]).value] + Decoded(entries[1..], decodeLog);
      forall i | 0 <= i < |entries|
        ensures decodeLog(entries[i]) == Some(events[i])
      {
        if i > 0 {
          assert entries[i] == entries[1..][i - 1];
        }
      }
    }
  }

  /** Decoding is a filter that keeps order: the entries of a concatenation decode to the
      concatenation of their decodings. */
  lemma {:induction false} DecodedAppend(a: seq<string>, b: seq<string>, decodeLog: string -> Option<Dispatcher.EventLog>)
    ensures Decoded(a + b, decodeLog) == Decoded(a, decodeLog) + Decoded(b, decodeLog)
    decreases |a|
  {
    if a == [] {
      assert a + b == b;
    } else {
      assert (a + b)[0] == a[0];
      assert (a + b)[1..] == a[1..] + b;
      DecodedAppend(a[1..], b, decodeLog);
    }
  }

  /** Collecting is per topic and in topic order: the fetches of a concatenation contribute the
      concatenation of their events. */
  lemma {:induction false} CollectAppend(a: seq<Result<seq<string>, string>>, b: seq<Result<seq<string>, string>>,
                                         decodeLog: string -> Option<Dispatcher.EventLog>)
    ensures Collect(a + b, decodeLog) == Collect(a, decodeLog) + Collect(b, decodeLog)
    decreases |a|
  {
    if a == [] {
      assert a + b == b;
    } else {
      assert (a + b)[0] == a[0];
      assert (a + b)[1..] == a[1..] + b;
      CollectAppend(a[1..], b, decodeLog);
    }
  }

  /** A failed fetch contributes nothing and does not abort the other topics: their events are
      forwarded as if the failed topic were not watched. */
  lemma FailedFetchIsSkipped(fetched: seq<Result<seq<string>, string>>, decodeLog: string -> Option<Dispatcher.EventLog>, k: nat)
    requires k < |fetched| && fetched[k].Failure?
    ensures Collect(fetched, decodeLog) == Collect(fetched[..k], decodeLog) + Collect(fetched[k + 1..], decodeLog)
  {
    var pre, mid, post := fetched[..k], [fetched[k]], fetched[k + 1..];
    assert fetched == pre + (mid + post);
    assert Collect(mid, decodeLog) == [];
    calc {
      Collect(fetched, decodeLog);
      { CollectAppend(pre, mid + post, decodeLog); }
      Collect(pre, decodeLog) + Collect(mid + post, decodeLog);
      { CollectAppend(mid, post, decodeLog); }
      Collect(pre, decodeLog) + ([] + Collect(post, decodeLog));
      { assert [] + Collect(post, decodeLog) == Collect(post, decodeLog); }
      Collect(pre, decodeLog) + Collect(post, decodeLog);
    }
  }

  /** An undecodable log entry is dropped and the entries around it are still forwarded, in order. */
  lemma UndecodableEntryIsSkipped(entries: seq<string>, decodeLog: string -> Option<Dispatcher.EventLog>, k: nat)
    requires k < |entries| && decodeLog(entries[k]).None?
    ensures Decoded(entries, decodeLog) == Decoded(entries[..k], decodeLog) + Decoded(entries[k + 1..], decodeLog)
  {
    var pre, mid, post := entries[..k], [entries[k]], entries[k + 1..];
    assert entries == pre + (mid + post);
    assert Decoded(mid, decodeLog) == [];
    calc {
      Decoded(entries, decodeLog);
      { DecodedAppend(pre, mid + post, decodeLog); }
      Decoded(pre, decodeLog) + Decoded(mid + post, decodeLog);
      { DecodedAppend(mid, post, decodeLog); }
      Decoded(pre, decodeLog) + ([] + Decoded(post, decodeLog));
      { assert [] + Decoded(post, decodeLog) == Decoded(post, decodeLog); }
      Decoded(pre, decodeLog) + Decoded(post, decodeLog);
    }
  }

  /** The block range a cycle scans, inclusive at both ends. */
  datatype Range = Range(lo: nat, hi: nat)

  /** One pass of the loop. A failed head read, or a head not past the checkpoint, changes
      nothing. Otherwise every topic is queried over the new range, the decodable logs are
      forwarded, the head is written as the checkpoint, and the listener advances to the head
      even if a fetch or the write failed. */
  function Cycle(l: Listener, topics: seq<string>, input: CycleInput, decodeLog: string -> Option<Dispatcher.EventLog>)
    : (r: (Listener, seq<Query>, seq<Dispatcher.EventLog>, Option<Range>))
    requires |input.fetched| == |topics|
    ensures r.3.Some? <==> input.head.Success? && ParseUintIgnoringError(input.head.value) > l.from
    ensures var (l', queries, events, scanned) := r;
            && (scanned.None? ==> l' == l && queries == [] && events == [])
            && (scanned.Some? ==>
                  && scanned.value == Range(l.from + 1, l'.from)
                  && l.from < l'.from <= MaxUint64
                  && input.head.Success? && l'.from == ParseUintIgnoringError(input.head.value)
                  && |queries| == |topics|
                  && (forall k :: 0 <= k < |topics| ==>
                        queries[k] == Query(HexQuantity(l.from + 1), HexQuantity(l'.from), topics[k]))
                  && events == Collect(input.fetched, decodeLog)
                  && l'.store == (if input.writeOk then l.store[CheckpointKey := CheckpointBytes(l'.from)] else l.store))
  {
    match input.head
    case Failure(_) => (l, [], [], None)
    case Success(latest) =>
      var head := ParseUintIgnoringError(latest);
      if head <= l.from then (l, [], [], None)
      else
        var queries := seq(|topics|, k requires 0 <= k < |topics| => Query(HexQuantity(l.from + 1), HexQuantity(head), topics[k]));
        var store := if input.writeOk then l.store[CheckpointKey := CheckpointBytes(head)] else l.store;
        (Listener(store, head), queries, Collect(input.fetched, decodeLog), Some(Range(l.from + 1, head)))
  }

  /** The topics the listener fetches, in fetch order. `RequestUpdateTxStatus` is not among them:
      the scan never forwards a status request. */
  function ScannedTopics(t: Dispatcher.Topics): seq<string> {
    [t.tokenRequest, t.chargeRequest, t.chargeRejected]
  }

  /** A cycle over the listener's topics queries token requests, charge requests and rejections,
      in that order, and never the status-request topic when its hash differs from those three. */
  lemma ScanSkipsStatusRequests(l: Listener, t: Dispatcher.Topics, input: CycleInput,
                                decodeLog: string -> Option<Dispatcher.EventLog>)
    requires |input.fetched| == 3
    ensures var queries := Cycle(l, ScannedTopics(t), input, decodeLog).1;
            && (queries == [] || [queries[0].topic, queries[1].topic, queries[2].topic]
                                   == [t.tokenRequest, t.chargeRequest, t.chargeRejected])
            && (t.requestUpdateTxStatus !in {t.tokenRequest, t.chargeRequest, t.chargeRejected} ==>
                  forall q :: q in queries ==> q.topic != t.requestUpdateTxStatus)
  {
  }

  /** The bounds sent to `eth_getLogs` denote exactly the scanned range. */
  lemma QueryBoundsDenoteRange(l: Listener, topics: seq<string>, input: CycleInput, decodeLog: string -> Option<Dispatcher.EventLog>, k: nat)
    requires |input.fetched| == |topics| && k < |topics|
    requires input.head.Success? && ParseUintIgnoringError(input.head.value) > l.from
    ensures var (_, queries, _, scanned) := Cycle(l, topics, input, decodeLog);
            && ParseUint(queries[k].fromBlock) == Success(scanned.value.lo)
            && ParseUint(queries[k].toBlock) == Success(scanned.value.hi)
  {
    var (l', queries, _, scanned) := Cycle(l, topics, input, decodeLog);
    HexQuantityRoundTrip(l.from + 1);
    HexQuantityRoundTrip(l'.from);
  }

  /** A topic whose fetch fails is not retried: the cycle forwards the other topics' events and
      still advances past the range, so that topic's events in it are never forwarded. */
  lemma FailedFetchIsNotRetried(l: Listener, topics: seq<string>, input: CycleInput, decodeLog: string -> Option<Dispatcher.EventLog>, k: nat)
    requires |input.fetched| == |topics| && k < |topics| && input.fetched[k].Failure?
    requires input.head.Success? && ParseUintIgnoringError(input.head.value) > l.from
    ensures var (l', _, events, _) := Cycle(l, topics, input, decodeLog);
            && l'.from == ParseUintIgnoringError(input.head.value)
            && events == Collect(input.fetched[..k], decodeLog) + Collect(input.fetched[k + 1..], decodeLog)
  {
    FailedFetchIsSkipped(input.fetched, decodeLog, k);
  }

  /** A restart after a cycle whose checkpoint write succeeded resumes where the cycle stopped. */
  lemma RestartResumes(l: Listener, topics: seq<string>, input: CycleInput, decodeLog: string -> Option<Dispatcher.EventLog>,
                       head: Result<string, string>, writeOk: bool)
    requires |input.fetched| == |topics| && input.writeOk
    requires input.head.Success? && ParseUintIgnoringError(input.head.value) > l.from
    ensures var l' := Cycle(l, topics, input, decodeLog).0;
            Start(l'.store, true, head, writeOk) == Some(l')
  {
    var l' := Cycle(l, topics, input, decodeLog).0;
    CheckpointRoundTrip(l'.from);
  }

  /** Consecutive cycles: the ranges scanned are contiguous and in increasing order, starting just
      after the initial checkpoint and ending at the final one; no block is scanned twice and
      none between the first and the last range is skipped. */
  function Run(l: Listener, topics: seq<string>, inputs: seq<CycleInput>, decodeLog: string -> Option<Dispatcher.EventLog>)
    : (r: (Listener, seq<Range>))
    requires forall k :: 0 <= k < |inputs| ==> |inputs[k].fetched| == |topics|
    ensures var (final, ranges) := r;
            && l.from <= final.from
            && (ranges == [] ==> final.from == l.from)
            && (ranges != [] ==> ranges[0].lo == l.from + 1 && ranges[|ranges| - 1].hi == final.from)
            && (forall k :: 0 <= k < |ranges| ==> ranges[k].lo <= ranges[k].hi)
            && (forall k :: 0 <= k < |ranges| - 1 ==> ranges[k + 1].lo == ranges[k].hi + 1)
    decreases |inputs|
  {
    if inputs == [] then (l, [])
    else
      var (l1, _, _, scanned) := Cycle(l, topics, inputs[0], decodeLog);
      var (final, rest) := Run(l1, topics, inputs[1..], decodeLog);
      if scanned.None? then (final, rest)
      else (final, [scanned.value] + rest)
  }

  /** The scanned ranges never overlap. */
  lemma {:induction false} RangesDisjoint(l: Listener, topics: seq<string>, inputs: seq<CycleInput>,
                                          decodeLog: string -> Option<Dispatcher.EventLog>, i: nat, j: nat)
    requires forall k :: 0 <= k < |inputs| ==> |inputs[k].fetched| == |topics|
    requires i < j < |Run(l, topics, inputs, decodeLog).1|
    ensures var ranges := Run(l, topics, inputs, decodeLog).1;
            ranges[i].hi < ranges[j].lo
    decreases j - i
  {
    var ranges := Run(l, topics, inputs, decodeLog).1;
    if j > i + 1 {
      RangesDisjoint(l, topics, inputs, decodeLog, i + 1, j);
    }
  }
}

=== FILE: monitor.dfy ===
/** `monitorTransaction`: a bounded poll of the processor for one pending charge. Each of at most
    five rounds either sees the monitor cancelled or polls the status; a success or a "transaction
    not exists" status settles the charge on chain and ends the monitor. The wall clock, the HTTP
    poll and the chain's replies are inputs. */
module Monitor {
  import opened Wrappers
  import opened Bytes
  import opened Strings
  import opened Gateway

  const MaxPolls: nat := 5

  /** What one round observes: the cancellation of the monitor's context, or a poll result (the
      collapsed status string) and the Unix time it was read at. */
  datatype PollEvent = CancelSeen | Polled(status: string, at: nat)

  /** The charge being watched. */
  datatype Watch = Watch(tokenId: Bytes32, txId: string, parentValue: nat, ownerPool: Address)

  /** The chain's replies to the calls a decisive status makes, in the order they are made. */
  datatype Replies = Replies(update: ChainReply, mint: ChainReply, pool: ChainReply)

  datatype MonitorEnd = Cancelled | Settled | Failed | CallFailed(m: ContractMethod) | Exhausted

  /** How a monitor ran: the number of polls made, the contract calls issued in order, and why it stopped. */
  datatype MonitorRun = MonitorRun(polls: nat, calls: seq<ChainCall>, end: MonitorEnd)

  predicate ReportsSuccess(status: string) {
    status == "success" || Contains(status, "success")
  }

  predicate ReportsMissing(status: string) {
    Contains(status, "transaction not exists")
  }

  /** A round that ends the monitor: a cancellation, or a status that settles the charge. */
  predicate Decisive(e: PollEvent) {
    e.CancelSeen? || ReportsSuccess(e.status) || ReportsMissing(e.status)
  }

  /** The calls a decisive status makes. Success is checked first: mark the charge settled (2), mint
      the merchant's UTXO, read the pool back, each only if the previous call succeeded. A missing
      transaction is marked failed (0). */
  function Verdict(w: Watch, status: string, at: nat, replies: Replies): (v: (seq<ChainCall>, MonitorEnd))
    requires ReportsSuccess(status) || ReportsMissing(status)
    ensures var (calls, end) := v;
            && 1 <= |calls| <= 3
            && calls[0].UpdateTxStatusCall? && calls[0].tokenId == w.tokenId && calls[0].txId == w.txId
            && calls[0].atTime == at
            && (ReportsSuccess(status) ==> calls[0].status == 2 && calls[0].reason == "success")
            && (!ReportsSuccess(status) ==> calls == [UpdateTxStatusCall(w.tokenId, w.txId, 0, at, "fail")])
            && (|calls| >= 2 ==> replies.update.Success? && calls[1] == MintUtxoCall(w.parentValue, w.ownerPool, w.txId))
            && (|calls| == 3 ==> replies.mint.Success? && calls[2] == GetPoolInfoCall(w.txId))
            && (end == Settled <==> ReportsSuccess(status) && replies.update.Success? && replies.mint.Success? && replies.pool.Success?)
            && (end == Failed <==> !ReportsSuccess(status) && replies.update.Success?)
            && (ReportsSuccess(status) && replies.update.Success? ==> |calls| >= 2)
            && (ReportsSuccess(status) && replies.update.Success? && replies.mint.Success? ==> |calls| == 3)
  {
    var update := UpdateTxStatusCall(w.tokenId, w.txId, if ReportsSuccess(status) then 2 else 0, at,
                                     if ReportsSuccess(status) then "success" else "fail");
    if !ReportsSuccess(status) then
      ([update], if replies.update.Success? then Failed else CallFailed(UpdateTxStatus))
    else if replies.update.Failure? then ([update], CallFailed(UpdateTxStatus))
    else
      var mint := MintUtxoCall(w.parentValue, w.ownerPool, w.txId);
      if replies.mint.Failure? then ([update, mint], CallFailed(MintUtxo))
      else ([update, mint, GetPoolInfoCall(w.txId)], if replies.pool.Success? then Settled else CallFailed(GetPoolInfo))
  }

  /** The first decisive round from `i` on, within the poll budget. */
  function FirstDecisive(events: seq<PollEvent>, i: nat): (d: Option<nat>)
    requires i <= MaxPolls <= |events|
    ensures d.Some? ==> i <= d.value < MaxPolls && Decisive(events[d.value])
    ensures d.Some? ==> forall k :: i <= k < d.value ==> !Decisive(events[k])
    ensures d.None? ==> forall k :: i <= k < MaxPolls ==> !Decisive(events[k])
    decreases MaxPolls - i
  {
    if i == MaxPolls then None
    else if Decisive(events[i]) then Some(i)
    else FirstDecisive(events, i + 1)
  }

  /** The monitor from round `i` on. Its outcome is decided by the first decisive round: none means
      the budget runs out with nothing written, a cancellation stops it before that round polls,
      and a decisive status makes that round's calls. */
  function MonitorFrom(w: Watch, events: seq<PollEvent>, replies: Replies, i: nat): (r: MonitorRun)
    requires i <= MaxPolls <= |events|
    ensures i <= r.polls <= MaxPolls
    ensures FirstDecisive(events, i).None? ==> r == MonitorRun(MaxPolls, [], Exhausted)
    ensures FirstDecisive(events, i).Some? && events[FirstDecisive(events, i).value].CancelSeen?
            ==> r == MonitorRun(FirstDecisive(events, i).value, [], Cancelled)
    ensures FirstDecisive(events, i).Some? && events[FirstDecisive(events, i).value].Polled?
            ==> var d := FirstDecisive(events, i).value;
                r.polls == d + 1 && (r.calls, r.end) == Verdict(w, events[d].status, events[d].at, replies)
    decreases MaxPolls - i
  {
    if i == MaxPolls then MonitorRun(MaxPolls, [], Exhausted)
    else match events[i]
      case CancelSeen => MonitorRun(i, [], Cancelled)
      case Polled(status, at) =>
        if ReportsSuccess(status) || ReportsMissing(status) then
          var (calls, end) := Verdict(w, status, at, replies);
          MonitorRun(i + 1, calls, end)
        else MonitorFrom(w, events, replies, i + 1)
  }

  /** `monitorTransaction` for one charge: `events[k]` is what round `k + 1` observes. */
  function MonitorTransaction(w: Watch, events: seq<PollEvent>, replies: Replies): (r: MonitorRun)
    requires MaxPolls <= |events|
    ensures r.polls <= MaxPolls && |r.calls| <= 3
    ensures r.calls == [] <==> r.end == Cancelled || r.end == Exhausted
    ensures r.end == Exhausted ==> r.polls == MaxPolls
    ensures forall k :: 0 <= k < |r.calls| ==> !r.calls[k].SubmitTokenCall? && r.calls[k].txId == w.txId
  {
    MonitorFrom(w, events, replies, 0)
  }

  /** A monitor cancelled before its first poll makes no call. */
  lemma CancelledFirstWritesNothing(w: Watch, events: seq<PollEvent>, replies: Replies)
    requires MaxPolls <= |events| && events[0].CancelSeen?
    ensures MonitorTransaction(w, events, replies) == MonitorRun(0, [], Cancelled)
  {
  }

  /** Five inconclusive polls (including failed polls, whose status is empty) end the monitor with
      nothing written: the charge stays "being processed" on chain. */
  lemma InconclusivePollsWriteNothing(w: Watch, events: seq<PollEvent>, replies: Replies)
    requires MaxPolls <= |events|
    requires forall k :: 0 <= k < MaxPolls ==> events[k].Polled? && !ReportsSuccess(events[k].status) && !ReportsMissing(events[k].status)
    ensures MonitorTransaction(w, events, replies) == MonitorRun(MaxPolls, [], Exhausted)
  {
  }

  /** A status mentioning both markers counts as success: the success test comes first. */
  lemma SuccessWinsOverMissing(w: Watch, at: nat, replies: Replies)
    ensures Verdict(w, "success: transaction not exists", at, replies).0[0].status == 2
  {
    ContainsPrefix("success", ": transaction not exists");
  }

  /** Minting happens only after the charge was marked settled on chain, and only for a status
      that reports success. */
  lemma MintOnlyAfterSettledUpdate(w: Watch, events: seq<PollEvent>, replies: Replies, i: nat)
    requires i <= MaxPolls <= |events|
    ensures var r := MonitorFrom(w, events, replies, i);
            forall k :: 0 <= k < |r.calls| && r.calls[k].MintUtxoCall? ==>
              k == 1 && r.calls[0].status == 2 && replies.update.Success?
  {
  }
}

=== FILE: pkcs7.dfy ===
/** PKCS#7 padding (section 6.3 of RFC 5652) as `padPKCS7` and `unpadPKCS7` implement it.
    Unpadding is lax: it trusts the last byte and never inspects the bytes it drops. */
module Pkcs7 {
  import opened Wrappers
  import opened Bytes

  datatype PadError = DataEmpty | InvalidPadding

  /** The pad count `blockSize - len % blockSize`: never zero, at most one block. */
  function PadCount(n: nat, blockSize: nat): (p: nat)
    requires blockSize >= 1
    ensures 1 <= p <= blockSize
    ensures (n + p) % blockSize == 0
  {
    var p := blockSize - n % blockSize;
    assert n + p == (n / blockSize + 1) * blockSize;
    MultipleMod(n / blockSize + 1, blockSize);
    p
  }

  /** A multiple of `m` leaves no remainder. */
  lemma MultipleMod(k: nat, m: nat)
    requires m >= 1
    ensures (k * m) % m == 0
  {
    var q, r := (k * m) / m, (k * m) % m;
    assert q * m + r == k * m;
    var d := k - q;
    assert d * m == r by {
      assert d * m == k * m - q * m;
    }
  }

  /** `padPKCS7`: appends `p` copies of the byte `p`; the `byte(p)` conversion keeps only the low
      eight bits, which matters only for block sizes above 255. */
  function Pad(data: seq<byte>, blockSize: nat): (r: seq<byte>)
    requires blockSize >= 1
    ensures |r| == |data| + PadCount(|data|, blockSize)
    ensures |r| % blockSize == 0
    ensures r[..|data|] == data
    ensures forall i :: |data| <= i < |r| ==> r[i] == PadCount(|data|, blockSize) % 256
  {
    var p := PadCount(|data|, blockSize);
    var tail := seq(p, _ => p % 256);
    assert forall i :: 0 <= i < p ==> tail[i] == p % 256;
    assert (data + tail)[..|data|] == data;
    data + tail
  }

  /** `unpadPKCS7`: empty input is an error, a last byte larger than the input is an error, and
      otherwise that many trailing bytes are dropped whatever their values. */
  function Unpad(data: seq<byte>): (r: Result<seq<byte>, PadError>)
    ensures r == Failure(DataEmpty) <==> data == []
    ensures r == Failure(InvalidPadding) <==> data != [] && data[|data| - 1] > |data|
    ensures r.Success? ==> |r.value| <= |data| && r.value == data[..|r.value|]
    ensures r.Success? ==> |data| - |r.value| == data[|data| - 1]
  {
    if |data| == 0 then Failure(DataEmpty)
    else
      var padding := data[|data| - 1];
      if padding > |data| then Failure(InvalidPadding)
      else Success(data[..|data| - padding])
  }

  /** Unpadding undoes padding whenever the pad count fits in one byte. */
  lemma PadRoundTrip(data: seq<byte>, blockSize: nat)
    requires 1 <= blockSize <= 255
    ensures Unpad(Pad(data, blockSize)) == Success(data)
  {
    var padded := Pad(data, blockSize);
    var p := PadCount(|data|, blockSize);
    assert |padded| == |data| + p;
    assert padded[|padded| - 1] == p % 256 == p;
    assert padded[..|padded| - p] == data;
  }

  /** The bytes being dropped are not checked: a last byte 2 removes two bytes even when the other
      one is not 2, where a strict PKCS#7 check would reject. */
  lemma UnpadDoesNotCheckPadBytes()
    ensures Unpad([7, 9, 2]) == Success([7])
  {
    var data: seq<byte> := [7, 9, 2];
    assert data[..1] == [7];
  }

  /** A trailing zero byte "removes" nothing: the input comes back unchanged. */
  lemma UnpadZeroKeepsInput(data: seq<byte>)
    requires data != [] && data[|data| - 1] == 0
    ensures Unpad(data) == Success(data)
  {
    assert data[..|data|] == data;
  }

  /** The round trip needs the 255 bound: with a 256-byte block the pad byte wraps to 0 and
      unpadding an empty message's padding returns all 256 pad bytes. */
  lemma WideBlockBreaksRoundTrip()
    ensures Unpad(Pad([], 256)) == Success(seq(256, _ => 0))
    ensures Unpad(Pad([], 256)) != Success([])
  {
    var padded := Pad([], 256);
    var zeros := seq(256, _ => 0);
    assert PadCount(0, 256) == 256;
    assert padded == zeros;
    assert padded[255] == 0;
    assert padded[..256] == zeros;
  }
}

=== FILE: processor.dfy ===
/** The card processor client: card validation, the charge request it builds, the classification of
    the processor's reply, and the status poll. HTTP transport and JSON decoding are inputs. */
module Processor {
  import opened Wrappers
  import opened Bytes
  import opened Strings
  import Strconv

  /** Decrypted card payload; held in memory for one handler invocation only. */
  datatype CardData = CardData(cardNumber: string, expMonth: string, expYear: string, cvv: string)

  /** The processor's answer as the bridge records it. */
  datatype TxResponse = TxResponse(message: string, status: string, transactionId: string)

  /** Go's zero `TxResponse`, returned with every error. */
  const ZeroResponse: TxResponse := TxResponse("", "", "")

  /** `ValidateCard`: the only check is that the expiry year is four bytes long. */
  function ValidateCard(card: CardData): (err: Option<string>)
    ensures err.Some? <==> Utf8Len(card.expYear) != 4
  {
    if Utf8Len(card.expYear) != 4 then Some("expireYear must be exactly 4 characters") else None
  }

  /** A valid card with a one- or two-byte month gives the seven-byte "YYYY-MM" expiry the
      processor expects. */
  lemma ValidCardExpDate(card: CardData)
    requires ValidateCard(card).None? && Utf8Len(card.expMonth) <= 2
    ensures Utf8Len(ExpDate(card)) == 7
  {
  }

  /** `s` is zero or more copies of `pad` back to back. */
  predicate IsRepetition(s: string, pad: string)
    decreases |s|
  {
    if pad == [] then s == []
    else s == [] || (IsPrefix(pad, s) && IsRepetition(s[|pad|..], pad))
  }

  lemma {:induction false} RepetitionExtend(s: string, pad: string)
    requires pad != [] && IsRepetition(s, pad)
    ensures IsRepetition(pad + s, pad)
  {
    assert (pad + s)[..|pad|] == pad;
    assert (pad + s)[|pad|..] == s;
  }

  /** `padLeft`: prepends whole copies of `pad` while the byte length is below `length`. With an
      empty pad and a short string the Go loop never ends, so that input is excluded. */
  function PadLeft(str: string, length: int, pad: string): (r: string)
    requires pad != [] || Utf8Len(str) >= length
    ensures IsSuffix(str, r)
    ensures IsRepetition(r[..|r| - |str|], pad)
    ensures Utf8Len(r) >= length
    ensures Utf8Len(str) >= length ==> r == str
    ensures Utf8Len(str) < length ==> Utf8Len(r) - Utf8Len(pad) < length
    decreases length - Utf8Len(str)
  {
    Utf8LenAppend(pad, str);
    if Utf8Len(str) < length then
      var r := PadLeft(pad + str, length, pad);
      PadLeftStep(r, str, pad);
      r
    else
      assert str[..0] == [];
      str
  }

  /** One more copy of `pad` in front of `str` keeps `str` a suffix and the prefix a repetition. */
  lemma PadLeftStep(r: string, str: string, pad: string)
    requires pad != [] && IsSuffix(pad + str, r) && IsRepetition(r[..|r| - |pad + str|], pad)
    ensures IsSuffix(str, r) && IsRepetition(r[..|r| - |str|], pad)
  {
    assert r[|r| - |str|..] == str by {
      assert r[|r| - |pad + str|..] == pad + str;
    }
    assert r[..|r| - |str|] == r[..|r| - |pad + str|] + pad by {
      assert r[|r| - |pad + str|..|r| - |str|] == pad;
    }
    RepetitionAppend(r[..|r| - |pad + str|], pad);
  }

  lemma {:induction false} RepetitionAppend(s: string, pad: string)
    requires pad != [] && IsRepetition(s, pad)
    ensures IsRepetition(s + pad, pad)
    decreases |s|
  {
    if s == [] {
      assert s + pad == pad + [];
      RepetitionExtend([], pad);
    } else {
      RepetitionAppend(s[|pad|..], pad);
      assert (s + pad)[..|pad|] == pad;
      assert (s + pad)[|pad|..] == s[|pad|..] + pad;
    }
  }

  /** Copies of "0" back to back are all '0'. */
  lemma {:induction false} ZeroRepetition(s: string)
    requires IsRepetition(s, "0")
    ensures forall i :: 0 <= i < |s| ==> s[i] == '0'
    decreases |s|
  {
    if s != [] {
      ZeroRepetition(s[1..]);
      assert forall i :: 1 <= i < |s| ==> s[i] == s[1..][i - 1];
    }
  }

  /** In "year-" followed by a month padded with "0", everything between the dash and the
      original month is '0'. */
  lemma PaddedMonthZeros(year: string, month: string, padded: string)
    requires IsSuffix(month, padded) && IsRepetition(padded[..|padded| - |month|], "0")
    ensures var r := year + "-" + padded;
            forall i :: |year| + 1 <= i < |r| - |month| ==> r[i] == '0'
  {
    var r := year + "-" + padded;
    ZeroRepetition(padded[..|padded| - |month|]);
    assert forall i :: |year| + 1 <= i < |r| ==> r[i] == padded[i - |year| - 1];
  }

  /** `exp_date`: the year, a dash, and the month left-padded with "0" to two bytes. */
  function ExpDate(card: CardData): (r: string)
    ensures IsPrefix(card.expYear + "-", r)
    ensures IsSuffix(card.expMonth, r)
    ensures Utf8Len(card.expMonth) <= 2 ==> Utf8Len(r) == Utf8Len(card.expYear) + 3
    ensures Utf8Len(card.expMonth) >= 2 ==> r == card.expYear + "-" + card.expMonth
    ensures forall i :: |card.expYear| + 1 <= i < |r| - |card.expMonth| ==> r[i] == '0'
  {
    var month := PadLeft(card.expMonth, 2, "0");
    var r := card.expYear + "-" + month;
    assert IsPrefix(card.expYear + "-", r) by {
      assert r[..|card.expYear + "-"|] == card.expYear + "-";
    }
    assert IsSuffix(card.expMonth, r) by {
      assert r[|r| - |card.expMonth|..] == month[|month| - |card.expMonth|..];
    }
    assert Utf8Len(r) == Utf8Len(card.expYear + "-") + Utf8Len(month) by {
      Utf8LenAppend(card.expYear + "-", month);
    }
    Utf8LenAppend(card.expYear, "-");
    PaddedMonthZeros(card.expYear, card.expMonth, month);
    r
  }

  /** `wallet_to`: the merchant address without its "0x". */
  function WalletTo(merchant: Address): (r: string)
    ensures "0x" + r == merchant
    ensures |r| == 40
  {
    merchant[2..]
  }

  /** `generateTxID` with its randomness as input: five random bytes as ten hex digits, then the first
      hex digit of a sixth byte as `%x` prints it (no leading zero, so a byte below 16 gives its only
      digit and a larger one its high digit). */
  function GenerateTxId(random: seq<byte>): (r: string)
    requires |random| == 6
    ensures |r| == 14
    ensures r[..3] == "tx_"
    ensures forall i :: 3 <= i < 14 ==> IsLowerHex(r[i])
  {
    var digits := Strconv.FormatNat(random[5], 16);
    "tx_" + HexEncode(random[..5]) + digits[..1]
  }

  /** The ten-digit middle of a transaction id decodes back to the five random bytes that made it. */
  lemma TxIdCarriesRandomBytes(random: seq<byte>)
    requires |random| == 6
    ensures HexDecode(GenerateTxId(random)[3..13]) == Some(random[..5])
  {
    var r := GenerateTxId(random);
    assert r[3..13] == HexEncode(random[..5]);
    HexRoundTrip(random[..5]);
  }

  /** `amount.Int64()`: the low 64 bits of the amount read as a two's-complement `int64`. */
  function Int64Of(n: nat): (v: int)
    ensures -0x8000_0000_0000_0000 <= v < 0x8000_0000_0000_0000
    ensures (v - n) % 0x1_0000_0000_0000_0000 == 0
  {
    var low := n % 0x1_0000_0000_0000_0000;
    if low < 0x8000_0000_0000_0000 then low else low - 0x1_0000_0000_0000_0000
  }

  /** Amounts that fit in an `int64` are sent unchanged; larger ones wrap, `2^63` becoming the most
      negative `int64`. */
  lemma Int64Narrowing(n: nat)
    ensures n < 0x8000_0000_0000_0000 ==> Int64Of(n) == n
    ensures Int64Of(0x8000_0000_0000_0000) == -0x8000_0000_0000_0000
    ensures Int64Of(n + 0x1_0000_0000_0000_0000) == Int64Of(n)
  {
  }

  /** The JSON body of the charge request (`m_id`, `tx_id`, `card_number`, `exp_date`, `amount`,
      `wallet_to`, `fee_payer`, `cvv`). */
  datatype Payload = Payload(mId: string, txId: string, cardNumber: string, expDate: string,
                             amount: int, walletTo: string, feePayer: int, cvv: string)

  /** The merchant id the bridge identifies itself with. */
  const MerchantId: string := "pos123"

  function BuildPayload(card: CardData, amount: nat, merchant: Address, random: seq<byte>): (p: Payload)
    requires |random| == 6
    ensures p.mId == MerchantId && p.feePayer == 1
    ensures p.cardNumber == card.cardNumber && p.cvv == card.cvv && p.amount == Int64Of(amount)
    ensures |p.txId| == 14 && p.txId[..3] == "tx_" && p.txId == GenerateTxId(random)
    ensures IsPrefix(card.expYear + "-", p.expDate) && p.expDate == ExpDate(card)
    ensures "0x" + p.walletTo == merchant
  {
    Payload(MerchantId, GenerateTxId(random), card.cardNumber, ExpDate(card), Int64Of(amount), WalletTo(merchant), 1, card.cvv)
  }

  /** What the HTTP layer hands back: a failure to build, send or read the request, or a body. */
  datatype HttpReply = HttpFailed(reason: string) | HttpBody(body: string)

  /** The markers the reply body is searched for, in this order. */
  const SuccessMarker: string := "success"
  const ProcessingMarker: string := "being processed"

  /** Reading the reply body: "success" anywhere wins over "being processed"; otherwise the body is
      JSON, and a body that is not JSON becomes a "failed" response carrying the body as message. */
  function ClassifyReply(body: string, txId: string, decode: string -> Option<TxResponse>): (r: TxResponse)
    ensures Contains(body, SuccessMarker) ==> r == TxResponse(body, "success", txId)
    ensures !Contains(body, SuccessMarker) && Contains(body, ProcessingMarker) ==> r == TxResponse(body, "being processed", txId)
    ensures !Contains(body, SuccessMarker) && !Contains(body, ProcessingMarker) && decode(body).None?
            ==> r == TxResponse(body, "failed", txId)
    ensures !Contains(body, SuccessMarker) && !Contains(body, ProcessingMarker) && decode(body).Some?
            ==> r == decode(body).value
  {
    if Contains(body, SuccessMarker) then TxResponse(body, "success", txId)
    else if Contains(body, ProcessingMarker) then TxResponse(body, "being processed", txId)
    else match decode(body)
      case None => TxResponse(body, "failed", txId)
      case Some(resp) => resp
  }

  /** A reply recognised by a marker is the bridge's own record of the charge: it carries the
      generated transaction id and the raw body, and its status names the marker that matched. */
  lemma MarkerRepliesAreTagged(body: string, txId: string, decode: string -> Option<TxResponse>)
    requires Contains(body, SuccessMarker) || Contains(body, ProcessingMarker)
    ensures var r := ClassifyReply(body, txId, decode);
            && r.transactionId == txId && r.message == body
            && (r.status == "success" <==> Contains(body, SuccessMarker))
            && (r.status == "being processed" <==> !Contains(body, SuccessMarker))
  {
  }

  /** One call of `SendToThirdParty`: the request it sent (if any), the response and the error. */
  datatype Exchange = Exchange(request: Option<Payload>, response: TxResponse, error: Option<string>)

  /** `SendToThirdParty`: an invalid card returns the zero response and the validation error before
      any request is built; a transport failure returns the zero response and that error; otherwise
      the body is classified and there is no error. */
  function SendToThirdParty(card: CardData, amount: nat, merchant: Address, random: seq<byte>,
                            reply: HttpReply, decode: string -> Option<TxResponse>): (x: Exchange)
    requires |random| == 6
    ensures ValidateCard(card).Some? ==> x == Exchange(None, ZeroResponse, ValidateCard(card))
    ensures ValidateCard(card).None? ==> x.request == Some(BuildPayload(card, amount, merchant, random))
    ensures x.error.Some? <==> ValidateCard(card).Some? || reply.HttpFailed?
    ensures x.error.Some? ==> x.response == ZeroResponse
    ensures x.error.None? ==> x.request.Some? && reply.HttpBody?
    ensures x.error.None? && x.request.Some? && reply.HttpBody? ==>
              x.response == ClassifyReply(reply.body, x.request.value.txId, decode)
  {
    if ValidateCard(card).Some? then Exchange(None, ZeroResponse, ValidateCard(card))
    else
      var payload := BuildPayload(card, amount, merchant, random);
      match reply
      case HttpFailed(reason) => Exchange(Some(payload), ZeroResponse, Some(reason))
      case HttpBody(body) => Exchange(Some(payload), ClassifyReply(body, payload.txId, decode), None)
  }

  /** `UpdateStatus`: the `status` field of the poll reply, with every failure (request, transport,
      read, JSON) collapsed to the empty string. */
  function UpdateStatus(reply: HttpReply, decodeStatus: string -> Option<string>): (status: string)
    ensures reply.HttpFailed? ==> status == ""
    ensures reply.HttpBody? && decodeStatus(reply.body).None? ==> status == ""
    ensures status != "" ==> reply.HttpBody? && decodeStatus(reply.body) == Some(status)
    ensures reply.HttpBody? && decodeStatus(reply.body).Some? ==> status == decodeStatus(reply.body).value
  {
    match reply
    case HttpFailed(_) => ""
    case HttpBody(body) => decodeStatus(body).GetOr("")
  }

  /** A failed poll is indistinguishable from an inconclusive one: it contains neither marker the
      monitor looks for. */
  lemma FailedPollIsInconclusive(reply: HttpReply, decodeStatus: string -> Option<string>)
    requires reply.HttpFailed?
    ensures !Contains(UpdateStatus(reply, decodeStatus), "success")
    ensures !Contains(UpdateStatus(reply, decodeStatus), "transaction not exists")
  {
    EmptyContainsNothing("success");
    EmptyContainsNothing("transaction not exists");
  }
}

=== FILE: registry.dfy ===
/** The `cancelMonitors` registry: at most one live monitor per processor transaction id. Each
    cancel function is modelled by a token; cancelling it moves the token into `cancelled`, which
    is what the monitor holding it observes. */
module Registry {

  datatype Registry = Registry(live: map<string, nat>, cancelled: set<nat>, next: nat)

  /** The registry starts empty. */
  const Empty: Registry := Registry(map[], {}, 0)

  /** Tokens are handed out in increasing order; a live token is not yet cancelled, and no two
      transactions share one. */
  ghost predicate Valid(r: Registry) {
    && (forall tx :: tx in r.live ==> r.live[tx] < r.next && r.live[tx] !in r.cancelled)
    && (forall t :: t in r.cancelled ==> t < r.next)
    && (forall tx, tx' :: tx in r.live && tx' in r.live && tx != tx' ==> r.live[tx] != r.live[tx'])
  }

  lemma EmptyValid()
    ensures Valid(Empty)
  {
  }

  /** Registering a new monitor for `txId`: the monitor already registered under that id, if any,
      is cancelled, and the fresh token takes its place. */
  function Register(r: Registry, txId: string): (result: (Registry, nat))
    ensures var (r', token) := result;
            && r'.live == r.live[txId := token]
            && (txId in r.live ==> r'.cancelled == r.cancelled + {r.live[txId]})
            && (txId !in r.live ==> r'.cancelled == r.cancelled)
    ensures Valid(r) ==> result.1 !in r.cancelled && result.1 !in r.live.Values
    ensures Valid(r) ==> Valid(result.0)
  {
    var cancelled := if txId in r.live then r.cancelled + {r.live[txId]} else r.cancelled;
    (Registry(r.live[txId := r.next], cancelled, r.next + 1), r.next)
  }

  /** Removing the monitor of `txId`: if one is registered it is cancelled and forgotten; otherwise
      nothing changes. */
  function Remove(r: Registry, txId: string): (r': Registry)
    ensures txId !in r'.live
    ensures forall tx :: tx in r.live && tx != txId ==> tx in r'.live && r'.live[tx] == r.live[tx]
    ensures forall tx :: tx in r'.live ==> tx in r.live
    ensures txId in r.live ==> r'.cancelled == r.cancelled + {r.live[txId]}
    ensures txId !in r.live ==> r' == r
    ensures Valid(r) ==> Valid(r')
  {
    if txId in r.live then Registry(r.live - {txId}, r.cancelled + {r.live[txId]}, r.next)
    else r
  }

  /** Cancellation is permanent: neither operation un-cancels a token. */
  lemma CancelledOnlyGrows(r: Registry, txId: string)
    ensures r.cancelled <= Register(r, txId).0.cancelled
    ensures r.cancelled <= Remove(r, txId).cancelled
  {
  }

  /** Registering twice for one transaction cancels the first monitor: only the newest one runs. */
  lemma SecondRegistrationSupersedes(r: Registry, txId: string)
    requires Valid(r)
    ensures var (r1, first) := Register(r, txId);
            var (r2, second) := Register(r1, txId);
            && first in r2.cancelled
            && second !in r2.cancelled
            && r2.live[txId] == second
            && first != second
  {
  }

  /** Removing after registering cancels the registered monitor and leaves no entry behind. */
  lemma RemoveCancelsRegistered(r: Registry, txId: string)
    requires Valid(r)
    ensures var (r1, token) := Register(r, txId);
            var r2 := Remove(r1, txId);
            token in r2.cancelled && txId !in r2.live
  {
  }
}

=== FILE: strconv.dfy ===
/** The number formatting and parsing the ingestion loop uses for block numbers:
    `strconv.FormatUint(n, 10)` and `fmt.Sprintf("0x%x", n)` to write them,
    `strconv.ParseUint(s, 0, 64)` with its error ignored to read them back. */
module Strconv {
  import opened Wrappers
  import opened Bytes

  const MaxUint64: nat := 0xFFFF_FFFF_FFFF_FFFF

  /** `n` in the given base, most significant digit first, lower-case, without leading zeros. */
  function FormatNat(n: nat, base: nat): (s: string)
    requires 2 <= base <= 16
    ensures |s| >= 1
    ensures n > 0 ==> s[0] != '0'
    ensures forall i :: 0 <= i < |s| ==> DigitValue(s[i]).Some? && DigitValue(s[i]).value < base
    ensures forall i :: 0 <= i < |s| ==> IsLowerHex(s[i])
    decreases n
  {
    DigitValueOfDigit(n % base);
    if n < base then [HexDigit(n)]
    else
      DivStep(n, base);
      FormatNat(n / base, base) + [HexDigit(n % base)]
  }

  /** One step of positional notation: dropping the last digit leaves a smaller, still positive number. */
  lemma DivStep(n: nat, base: nat)
    requires 2 <= base <= n
    ensures 1 <= n / base < n
    ensures (n / base) * base + n % base == n
  {
    var q, r := n / base, n % base;
    assert q * base + r == n;
    assert q * base >= q * 2 by {
      MulMonotone(q, 2, base);
    }
  }

  lemma MulMonotone(q: nat, a: nat, b: nat)
    requires a <= b
    ensures q * a <= q * b
  {
  }

  /** `strconv.FormatUint(n, 10)`: the checkpoint's on-disk form. */
  function Decimal(n: nat): (s: string)
    ensures |s| >= 1
  {
    FormatNat(n, 10)
  }

  /** `fmt.Sprintf("0x%x", n)`: the block bounds sent to `eth_getLogs`. */
  function HexQuantity(n: nat): (s: string)
    ensures |s| >= 3 && s[..2] == "0x"
  {
    "0x" + FormatNat(n, 16)
  }

  /** Go's digit value in `ParseUint`: decimal digits, then letters of either case from 10 up. */
  function DigitValue(c: char): (r: Option<nat>)
    ensures r.Some? ==> r.value < 36
  {
    if '0' <= c <= '9' then Some(c as int - '0' as int)
    else if 'a' <= c <= 'z' then Some(c as int - 'a' as int + 10)
    else if 'A' <= c <= 'Z' then Some(c as int - 'A' as int + 10)
    else None
  }

  lemma DigitValueOfDigit(d: nat)
    requires d < 16
    ensures DigitValue(HexDigit(d)) == Some(d)
  {
  }

  datatype NumError = SyntaxError | RangeError

  /** Go's `lower`: `c | ('x' - 'X')`, which maps exactly the upper-case ASCII letters to lower case. */
  predicate IsLetter(c: char, lowerCase: char)
    requires 'a' <= lowerCase <= 'z'
  {
    c == lowerCase || c as int == lowerCase as int - 32
  }

  /** The digit loop of `ParseUint`, left to right: an invalid digit is a syntax error, and the first
      digit that takes the value past `MaxUint64` is a range error. */
  function ParseDigits(s: string, base: nat, acc: nat): (r: Result<nat, NumError>)
    requires 2 <= base <= 16
    requires acc <= MaxUint64
    ensures r.Success? ==> r.value <= MaxUint64
    decreases |s|
  {
    if s == [] then Success(acc)
    else match DigitValue(s[0])
      case None => Failure(SyntaxError)
      case Some(d) =>
        if d >= base then Failure(SyntaxError)
        else if acc * base + d > MaxUint64 then Failure(RangeError)
        else ParseDigits(s[1..], base, acc * base + d)
  }

  /** `strconv.ParseUint(s, 0, 64)`: the base comes from the prefix (`0b`, `0o`, `0x` in either case,
      a bare leading `0` for octal, decimal otherwise). */
  function ParseUint(s: string): (r: Result<nat, NumError>)
    ensures r.Success? ==> r.value <= MaxUint64
  {
    if s == [] then Failure(SyntaxError)
    else if s[0] == '0' then
      if |s| >= 3 && IsLetter(s[1], 'b') then ParseDigits(s[2..], 2, 0)
      else if |s| >= 3 && IsLetter(s[1], 'o') then ParseDigits(s[2..], 8, 0)
      else if |s| >= 3 && IsLetter(s[1], 'x') then ParseDigits(s[2..], 16, 0)
      else ParseDigits(s[1..], 8, 0)
    else ParseDigits(s, 10, 0)
  }

  /** `n, _ := strconv.ParseUint(s, 0, 64)`: the error is dropped, leaving Go's value for it,
      0 for a syntax error and the largest `uint64` for a range error. */
  function ParseUintIgnoringError(s: string): (n: nat)
    ensures n <= MaxUint64
    ensures ParseUint(s).Success? ==> n == ParseUint(s).value
    ensures ParseUint(s) == Failure(SyntaxError) ==> n == 0
    ensures ParseUint(s) == Failure(RangeError) ==> n == MaxUint64
  {
    match ParseUint(s)
    case Success(v) => v
    case Failure(SyntaxError) => 0
    case Failure(RangeError) => MaxUint64
  }

  /** The digit loop over a concatenation is the loop over the second part, started from the first's value. */
  lemma {:induction false} ParseDigitsAppend(s: string, t: string, base: nat, acc: nat)
    requires 2 <= base <= 16 && acc <= MaxUint64
    ensures ParseDigits(s + t, base, acc)
         == match ParseDigits(s, base, acc)
            case Success(v) => ParseDigits(t, base, v)
            case Failure(e) => Failure(e)
    decreases |s|
  {
    if s != [] {
      assert (s + t)[0] == s[0];
      assert (s + t)[1..] == s[1..] + t;
      match DigitValue(s[0])
      case None =>
      case Some(d) =>
        if d < base && acc * base + d <= MaxUint64 {
          ParseDigitsAppend(s[1..], t, base, acc * base + d);
        }
    } else {
      assert s + t == t;
    }
  }

  lemma ParseOneDigit(q: nat, d: nat, base: nat)
    requires 2 <= base <= 16 && d < base && q * base + d <= MaxUint64
    ensures ParseDigits([HexDigit(d)], base, q) == Success(q * base + d)
  {
    DigitValueOfDigit(d);
    assert [HexDigit(d)][1..] == [];
  }

  /** Reading back what `FormatNat` wrote gives the number, in every base the bridge uses. */
  lemma {:induction false} ParseFormatted(n: nat, base: nat)
    requires 2 <= base <= 16 && n <= MaxUint64
    ensures ParseDigits(FormatNat(n, base), base, 0) == Success(n)
    decreases n
  {
    if n < base {
      ParseOneDigit(0, n, base);
    } else {
      var q, d := n / base, n % base;
      DivStep(n, base);
      assert FormatNat(n, base) == FormatNat(q, base) + [HexDigit(d)];
      ParseFormatted(q, base);
      ParseDigitsAppend(FormatNat(q, base), [HexDigit(d)], base, 0);
      ParseOneDigit(q, d, base);
    }
  }

  /** The checkpoint round trip: `ParseUint(FormatUint(n, 10), 0, 64)` is `n`. The decimal form has no
      leading zero, so the base-0 parse does not read it as octal. */
  lemma DecimalRoundTrip(n: nat)
    requires n <= MaxUint64
    ensures ParseUint(Decimal(n)) == Success(n)
    ensures ParseUintIgnoringError(Decimal(n)) == n
  {
    var s := Decimal(n);
    if n == 0 {
      assert s == "0";
      assert s[1..] == [];
    } else {
      ParseFormatted(n, 10);
    }
  }

  /** The `0x`-prefixed form of a block number parses back to it. */
  lemma HexQuantityRoundTrip(n: nat)
    requires n <= MaxUint64
    ensures ParseUint(HexQuantity(n)) == Success(n)
  {
    var s := HexQuantity(n);
    assert s[2..] == FormatNat(n, 16);
    assert s[0] == '0' && s[1] == 'x';
    ParseFormatted(n, 16);
  }

  /** A number past the `uint64` range is read as the largest `uint64`, not as a syntax error:
      appending a digit to a large enough decimal number overflows. */
  lemma OverflowSaturates(n: nat)
    requires MaxUint64 / 10 < n <= MaxUint64
    ensures ParseUint(Decimal(n) + "0") == Failure(RangeError)
    ensures ParseUintIgnoringError(Decimal(n) + "0") == MaxUint64
  {
    var s := Decimal(n);
    ParseFormatted(n, 10);
    ParseDigitsAppend(s, "0", 10, 0);
    assert (s + "0")[0] == s[0];
    assert ParseDigits("0", 10, n) == Failure(RangeError);
  }
}

=== FILE: strings.dfy ===
/** The parts of Go's `strings` package the bridge relies on. */
module Strings {

  predicate IsPrefix(p: string, s: string) {
    |p| <= |s| && s[..|p|] == p
  }

  predicate IsSuffix(p: string, s: string) {
    |p| <= |s| && s[|s| - |p|..] == p
  }

  /** `sub` occurs in `s` starting at index `i`. */
  predicate OccursAt(s: string, sub: string, i: nat) {
    i + |sub| <= |s| && s[i..i + |sub|] == sub
  }

  /** `strings.Contains`: the substring test the bridge uses to read processor replies. */
  predicate Contains(s: string, sub: string)
    decreases |s|
  {
    IsPrefix(sub, s) || (|s| > 0 && Contains(s[1..], sub))
  }

  /** `Contains` is exactly "occurs at some position". */
  lemma {:induction false} ContainsIffOccurs(s: string, sub: string)
    ensures Contains(s, sub) <==> exists i: nat :: OccursAt(s, sub, i)
    decreases |s|
  {
    if IsPrefix(sub, s) {
      assert OccursAt(s, sub, 0);
    } else if |s| > 0 {
      ContainsIffOccurs(s[1..], sub);
      if Contains(s[1..], sub) {
        var i: nat :| OccursAt(s[1..], sub, i);
        assert s[1..][i..i + |sub|] == s[i + 1..i + 1 + |sub|];
        assert OccursAt(s, sub, i + 1);
      }
      if exists i: nat :: OccursAt(s, sub, i) {
        var i: nat :| OccursAt(s, sub, i);
        assert i != 0;
        assert s[1..][i - 1..i - 1 + |sub|] == s[i..i + |sub|];
        assert OccursAt(s[1..], sub, i - 1);
      }
    }
  }

  /** A non-empty needle never occurs in the empty string (a collapsed, empty processor reply). */
  lemma EmptyContainsNothing(sub: string)
    requires |sub| > 0
    ensures !Contains("", sub)
  {
  }

  /** `sub` occurs in any string that has it as a prefix, whatever follows. */
  lemma ContainsPrefix(sub: string, rest: string)
    ensures Contains(sub + rest, sub)
  {
    assert (sub + rest)[..|sub|] == sub;
  }

  /** The number of bytes UTF-8 needs for one character. */
  function CharBytes(c: char): (n: nat)
    ensures 1 <= n <= 4
    ensures n == 1 <==> c as int < 0x80
  {
    if c as int < 0x80 then 1
    else if c as int < 0x800 then 2
    else if c as int < 0x1_0000 then 3
    else 4
  }

  /** Go's `len(s)` on a string: its length in UTF-8 bytes, not in characters. */
  function Utf8Len(s: string): (n: nat)
    ensures |s| <= n <= 4 * |s|
    ensures n == 0 <==> s == []
  {
    if s == [] then 0 else CharBytes(s[0]) + Utf8Len(s[1..])
  }

  lemma {:induction false} Utf8LenAppend(a: string, b: string)
    ensures Utf8Len(a + b) == Utf8Len(a) + Utf8Len(b)
    decreases |a|
  {
    if a != [] {
      assert (a + b)[0] == a[0];
      assert (a + b)[1..] == a[1..] + b;
      Utf8LenAppend(a[1..], b);
    } else {
      assert a + b == b;
    }
  }

  /** For ASCII text, Go's byte length is the character count. */
  lemma {:induction false} Utf8LenAscii(s: string)
    requires forall i :: 0 <= i < |s| ==> s[i] as int < 0x80
    ensures Utf8Len(s) == |s|
    decreases |s|
  {
    if s != [] {
      Utf8LenAscii(s[1..]);
    }
  }
}

=== FILE: wrappers.dfy ===
/** Failure-compatible result types shared by every module of the bridge model. */
module Wrappers {

  /** A value that may be absent: a missing vault key, an undecodable log, a failed parse. */
  datatype Option<+T> = None | Some(value: T) {

    /** Returns the value, or `default` when absent (Go's "ignore the error, use the zero value"). */
    function GetOr(default: T): T {
      match this
      case Some(v) => v
      case None => default
    }
  }

  /** The outcome of a Go call returning `(value, error)`. */
  datatype Result<+R, +E> = Success(value: R) | Failure(error: E) {

    predicate IsFailure() {
      Failure?
    }

    function PropagateFailure<U>(): Result<U, E>
      requires Failure?
    {
      Failure(error)
    }

    function Extract(): R
      requires Success?
    {
      value
    }
  }
}
